=== FILE: README.md ===
# Sliding-window object detection: a verified model

This project models the detection pipeline of `model/model_tflite.py`. A
neural detector only accepts small crops, so the pipeline covers a large
image with overlapping square windows. It runs the detector on each window,
maps every window's output back into image pixels, and merges duplicates with
greedy non-max suppression. The detector is opaque to the core. Here it is a
function parameter `Region -> seq<Candidate>`: the clipped crop goes in, and
rows of score, normalised box and class id come out.

The project has four modules:

- `Detections` (`detections.dfy`) holds the detection record, the single
  error the core raises (`InvalidTile`, an empty crop), a `Result` type, and
  Python's truncating `int()`.
- `TileMapping` (`tile_mapping.dfy`) covers one detector pass over one crop:
  - the crop `image[ay0:ay1, ax0:ax1]` with Python's slice normalisation
    (negative bounds count from the end, bounds are clamped);
  - the score filter, the `"Unknown"` label default and the truncated
    scaling by the crop's own size, offset by the requested origin;
  - the percent entry point `int(p * (dim - 1))`.
- `Suppression` (`suppression.dfy`) is `non_max_suppression`:
  - `np.argsort` as a stable insertion sort into ascending score order;
  - the greedy loop that keeps the last index and deletes the overlapped
    ones;
  - the asymmetric overlap ratio (intersection over the *other* box's
    inclusive area), including numpy's division by zero.
- `SlidingWindow` (`sliding_window.dfy`) covers the rest of the pipeline:
  - the estimate of the first pass (truncated mean width and height);
  - the plan: a window of `4 * mean_dy`, columns advancing by `mean_dy` and
    rows by `mean_dx`, exactly as the source cross-assigns them;
  - the origins along each axis, and the nested scan as two `while` loops;
  - coverage, the degenerate estimates, and the final merge at 0.5.

A few behaviours of the code are worth stating up front:

- A mapped box can reach `xmax == W` (and `ymax == H`): a candidate whose
  right edge is 1.0 lands on the crop's right edge plus its origin, one past
  the last pixel. `InsideRegion` allows that edge.
- Columns are always covered (`ColumnsCovered`), but rows are not: when
  `mean_dx > 4 * mean_dy` the row stride exceeds the window, and the image
  row at the window's height lies in no window (`RowGap`).
- Strides are not clamped to at least one pixel:
  - a mean height of zero or less makes a window empty, so the run raises;
  - a negative mean width walks the rows out of the image, which also raises;
  - a mean width of zero never moves the row origin.

  `SlidingWindowInference` reports these cases as `Failure(InvalidTile)` and
  `Endless`.
- The `(0, 0, 1, 1)` first pass crops `[0, W-1) x [0, H-1)`, dropping the
  last column and row of the image (`FullImagePass`).

## Model

| member | source | states |
|---|---|---|
| Detections.Trunc | model/model_tflite.py:79-82 | `int()` on a real rounds toward zero: the result is within one of the input, on the input's side of zero |
| Detections.TruncMonotone | model/model_tflite.py:79-82 | truncation never reverses the order of two values, so a box with min <= max keeps it after scaling |
| TileMapping.SliceBound | model/model_tflite.py:65 | a slice bound lands in `[0, len]`: a bound in range is kept, one past the end is clamped to `len`, and a negative one counts from the end, `i + len`, or clamps to 0 when that is still negative |
| TileMapping.SliceLength | model/model_tflite.py:65 | the kept part lies inside the axis; an in-range slice keeps `stop - start` elements, a stop past the end keeps `len - start`, a reversed slice keeps none, and a start inside the axis before the stop keeps at least one |
| TileMapping.Crop | model/model_tflite.py:65 | the crop lies inside the image; its size is the kept length of each slice, so an origin inside the image gives left/top at the origin and a width of `ax1 - ax0`, or `W - ax0` when the far bound is past the edge (same for heights) |
| TileMapping.LabelFor | model/model_tflite.py:84-85 | the label is the class map's entry for a known id and `"Unknown"` for an id the map lacks |
| TileMapping.Scale | model/model_tflite.py:79-82 | the pixel offset is the fraction times the crop dimension, truncated toward zero (for `f >= 0`: `p <= f*dim < p+1`); a fraction in [0, 1] lands in `[0, dim]` |
| TileMapping.Place | model/model_tflite.py:79-87 | an absolute coordinate is the crop origin plus the fraction times the crop dimension, truncated toward zero |
| TileMapping.PlaceSpan | model/model_tflite.py:79-87 | two fractions in order give coordinates in order, and fractions in [0, 1] give coordinates inside `[origin, origin+dim]` |
| TileMapping.ScaleMonotone | model/model_tflite.py:79-82 | scaling a larger fraction never gives a smaller pixel offset |
| TileMapping.MapCandidate | model/model_tflite.py:79-87 | the record keeps the row's score; its label is the class map's entry for the truncated id, or `"Unknown"` for an id the map lacks; `xmin`/`xmax` are `ax0` plus the row's `xmin`/`xmax` times the crop width `w`, truncated toward zero, and `ymin`/`ymax` are `ay0` plus the row's `ymin`/`ymax` times the crop height `h`, truncated the same way; corners in order stay in order, and a unit box maps inside `[ax0, ax0+w] x [ay0, ay0+h]` |
| TileMapping.Kept | model/model_tflite.py:77-78 | the surviving row indices are strictly increasing, in range, and no more than the rows |
| TileMapping.KeptMember | model/model_tflite.py:77-78 | a row survives exactly when its score is strictly above the cutoff |
| TileMapping.MapTile | model/model_tflite.py:77-89 | one record per surviving row |
| TileMapping.MapTileAt | model/model_tflite.py:77-89 | the k-th record is the mapping of the k-th surviving row, so row order is preserved |
| TileMapping.MapTileSound | model/model_tflite.py:77-89 | every record scores above the cutoff and is the mapping of some row |
| TileMapping.MapTileComplete | model/model_tflite.py:77-89 | every row above the cutoff appears, mapped, among the records |
| TileMapping.MapTileExact | model/model_tflite.py:77-89 | the records are exactly the mappings of the rows above the cutoff: each record is one, and each one is a record |
| TileMapping.InferPart | model/model_tflite.py:63-89 | a crop raises exactly when it has no columns or no rows; otherwise every record clears the cutoff, and the records are exactly the mappings (by the crop's size and the requested origin) of the crop's detector rows above the cutoff |
| TileMapping.InferPartInside | model/model_tflite.py:65-87 | with a detector whose boxes stay in the unit square and an origin at or right/below (0, 0), every record lies inside the crop, and the crop inside the image |
| TileMapping.PercentToPixel | model/model_tflite.py:92-97 | a fraction in [0, 1] maps into `[0, dim-1]`; 0 maps to the first pixel and 1 to `dim-1` |
| TileMapping.FullImagePass | model/model_tflite.py:92-97 | the `(0, 0, 1, 1)` pass crops `[0, W-1) x [0, H-1)`, dropping the last column and row, and raises exactly when the image is at most one pixel wide or high |
| Suppression.ExceedsCrossMultiplied | model/model_tflite.py:35-41 | for a non-negative threshold, a box is suppressed exactly when its area is positive and the intersection exceeds threshold times that area |
| Suppression.InsertMember | model/model_tflite.py:23 | inserting an index adds exactly that index |
| Suppression.InsertAscending | model/model_tflite.py:23 | inserting into an ascending order keeps it ascending by score |
| Suppression.InsertDistinct | model/model_tflite.py:23 | inserting a new index keeps the indices distinct |
| Suppression.ArgSortPrefixMember | model/model_tflite.py:23 | sorting the first n records yields exactly the indices below n |
| Suppression.ArgSortPrefixSorted | model/model_tflite.py:23 | the sorted prefix is duplicate-free and ascending by score |
| Suppression.ArgSort | model/model_tflite.py:23 | the order has one entry per record, all in range, distinct and ascending by score |
| Suppression.ArgSortPermutation | model/model_tflite.py:23 | the order contains every record index and nothing else |
| Suppression.SurvivorsMember | model/model_tflite.py:30-41 | after one round a candidate remains exactly when it was remaining and the kept box does not overlap it beyond the threshold |
| Suppression.SurvivorsOrdered | model/model_tflite.py:40-41 | deleting suppressed indices keeps the remaining ones distinct and ascending |
| Suppression.GreedyMember | model/model_tflite.py:25-28 | only remaining candidates are ever picked |
| Suppression.GreedyDistinct | model/model_tflite.py:25-41 | no candidate is picked twice |
| Suppression.GreedyDescending | model/model_tflite.py:23-28 | picks come out in non-increasing score order, the first one being the highest-scored candidate |
| Suppression.GreedyKeptApart | model/model_tflite.py:30-41 | no picked box overlaps a later pick beyond the threshold |
| Suppression.GreedyComplete | model/model_tflite.py:25-41 | every candidate is either picked or overlapped beyond the threshold by a pick scoring at least as high |
| Suppression.NmsSubList | model/model_tflite.py:6-43 | empty input gives `[]`; otherwise each input is picked at most once and every output record is an input record, so the output is no longer than the input |
| Suppression.NmsOrder | model/model_tflite.py:23-43 | the output is in non-increasing score order and, for non-empty input, starts with a maximum-score record |
| Suppression.NmsKeptApart | model/model_tflite.py:30-43 | no kept record overlaps a later kept record beyond the threshold |
| Suppression.ApartIsWithinThreshold | model/model_tflite.py:38-41 | for a non-negative threshold, records kept apart intersect by at most threshold times the later record's area; overlap exactly at the threshold survives |
| Suppression.NmsWithinThreshold | model/model_tflite.py:22-43 | any two kept records intersect by at most threshold times the later one's area |
| Suppression.NmsDropsOnlyOverlapped | model/model_tflite.py:25-43 | an input record missing from the output is overlapped beyond the threshold by an output record scoring at least as high |
| Suppression.NmsFixedPoint | model/model_tflite.py:6-43 | records in strictly descending score order that pairwise stay within the threshold come back unchanged |
| Suppression.NmsIdempotent | model/model_tflite.py:6-43 | with distinct scores, suppressing the output again returns it unchanged |
| SlidingWindow.TruncatedMean | model/model_tflite.py:137-139 | the mean is the sum divided by the count, truncated toward zero: `m*n <= sum < (m+1)*n` for a non-negative sum and `(m-1)*n < sum <= m*n` for a negative one |
| SlidingWindow.TruncDiv | model/model_tflite.py:137-139 | truncating the real quotient `s / n` brackets `s` between consecutive multiples of `n`, on the quotient's side of zero |
| SlidingWindow.MeanBetween | model/model_tflite.py:138-139 | the truncated mean of values in `[lo, hi]` stays in `[lo, hi]` |
| SlidingWindow.EstimateBetween | model/model_tflite.py:137-142 | boxes between lo and hi pixels wide and high give strides in `[lo, hi]` and a window in `[4 lo, 4 hi]` |
| SlidingWindow.EstimateExample | model/model_tflite.py:137-142 | one box (10,10)-(30,30) gives both means 20 and an 80-pixel window |
| SlidingWindow.Origins | model/model_tflite.py:144-151 | the origins lie in `[start, limit)`, there are none exactly when start is at or past the limit, and otherwise they start at `start` and one more stride reaches the limit |
| SlidingWindow.OriginsAt | model/model_tflite.py:144-151 | the k-th origin is `start + k * stride` |
| SlidingWindow.OriginsExactly | model/model_tflite.py:144-151 | the origins from 0 are exactly the multiples of the stride below the limit |
| SlidingWindow.OriginsExample | model/model_tflite.py:144-151 | a 100-pixel axis with stride 20 starts windows at 0, 20, 40, 60 and 80 |
| SlidingWindow.TileSucceeds | model/model_tflite.py:148-149 | a window of at least one pixel whose origin is inside the image keeps at least one column and row, so it does not raise |
| SlidingWindow.GridSucceeds | model/model_tflite.py:147-149 | every window whose origin lies inside the image succeeds |
| SlidingWindow.RowFromOrigins | model/model_tflite.py:147-150 | the inner loop's walk from `x0` visits exactly the windows at the origins from `x0` on, in order |
| SlidingWindow.ScanRow | model/model_tflite.py:146-150 | the inner loop terminates and returns the concatenated detections of the row's windows at the column origins |
| SlidingWindow.GridFromOrigins | model/model_tflite.py:145-151 | the outer loop's walk from `y0` visits exactly the rows at the origins from `y0` on, in order |
| SlidingWindow.ScanGrid | model/model_tflite.py:145-151 | when every window inside the limits succeeds, the outer loop terminates and returns the concatenated detections of the rows at the row origins |
| SlidingWindow.ScanTiles | model/model_tflite.py:143-151 | for means of at least one, the nested loops terminate and return all windows' detections, row after row |
| SlidingWindow.ScanSucceeds | model/model_tflite.py:143-151 | for means of at least one, no window of the scan raises, so the whole scan succeeds |
| SlidingWindow.ColumnsCovered | model/model_tflite.py:147-150 | every column of the image lies in some window of each row |
| SlidingWindow.RowsCovered | model/model_tflite.py:145-151 | when the row stride is at most the window, every row but possibly the last lies in some window; a strictly smaller stride covers the last row as well |
| SlidingWindow.RowGap | model/model_tflite.py:142-151 | when the mean width exceeds the window, the image row at the window's height lies in no window |
| SlidingWindow.WindowKeeps | model/model_tflite.py:149 | a window yields only records above the cutoff and, with a well-behaved detector and a non-negative origin, only records inside the image |
| SlidingWindow.ScanSound | model/model_tflite.py:143-151 | every record the scan collects is above the cutoff and, with a well-behaved detector, inside the image |
| SlidingWindow.NonPositiveWindowFails | model/model_tflite.py:142-150 | with a mean height of zero or less, the second window of the first row has no columns, so the run raises |
| SlidingWindow.NegativeRowStrideFails | model/model_tflite.py:145-151 | with a negative mean width, the row origin after `H + window` steps is at most 0, so still below `H-1` and reached by the loop, and its window at column 0 has no rows and raises for every cutoff, class map and detector |
| SlidingWindow.ZeroRowStrideRepeats | model/model_tflite.py:145-151 | with a zero mean width, every row origin is 0 and every window of that row succeeds, so the loop never ends |
| SlidingWindow.DetectedSound | model/model_tflite.py:153 | for means of at least one the scan does not raise, and the final records come from the scan, score above the cutoff, lie inside the image for a well-behaved detector, come out best first, and pairwise intersect by at most half the later one's area |
| SlidingWindow.SlidingWindowInference | model/model_tflite.py:124-157 | the run raises if the first pass does, and returns no estimate exactly when the first pass finds nothing. It raises exactly for a non-positive mean height or a negative mean width, and never ends exactly for a zero mean width. Otherwise it returns the 0.5 suppression of the scan's detections; the first pass's records are not included |

## Left out

- The TFLite interpreter (`model/model_tflite.py:47-61`) is left out because it is a foreign runtime. The detector is a function parameter from the clipped crop to candidate rows.
- `cv2.resize`, the `/255` normalisation and `expand_dims` (`model/model_tflite.py:67-71`) only prepare pixels. The model keeps just one effect: an empty crop raises `InvalidTile`.
- `cv2.imread`, the console message printed when the first pass finds nothing (line 129) and the drawing in `__display_image_with_boxes` are file I/O and presentation. So is the image in the return values at lines 130 and 157. The run returns an `Outcome` instead: `NoEstimate`, `Detected(detections)` or `Endless`.
- The UI, the inference thread and the settings persistence are outside the core.
- TileMapping.MapTile: the detector's output is one sequence of rows. The source's three parallel arrays are assumed to have equal length.
- TileMapping.MapCandidate: box scaling uses exact reals. The float32 products of the source, and their rounding, are not modelled.
- SlidingWindow.TruncatedMean: the mean is the exact rational mean, truncated. `np.mean`'s float64 rounding is not modelled.
- Suppression.ArgSort: this is a stable insertion sort. `np.argsort`'s default quicksort is not stable, so its order of equal scores may differ. Every greedy lemma holds for any ascending order, and the idempotence lemma assumes distinct scores.
- SlidingWindow.SlidingWindowInference is weaker than the source in three places:
  - A non-positive mean height or a negative mean width is reported as `Failure(InvalidTile)` directly. The model does not run the scan up to the first failing window; the failing window is exhibited by `NonPositiveWindowFails` and `NegativeRowStrideFails`.
  - A zero mean width is reported as `Endless` rather than as a loop that never returns; `ZeroRowStrideRepeats` shows why.
  - The scan itself is modelled only for both means of at least one.

=== FILE: detections.dfy ===
/**
 Value types shared by the whole detection pipeline: the detection record,
 the single error the core can raise, and Python's truncating `int()`.
 */
module Detections {

  /** One detection, with the fields of the source's list records
      `[score, name, xmin, ymin, xmax, ymax]`; coordinates are absolute
      image pixels. */
  datatype Detection = Detection(score: real, name: string, xmin: int, ymin: int, xmax: int, ymax: int)

  /** The failure the core raises itself: a crop with no rows or no columns,
      which the resize step refuses. */
  datatype Error = InvalidTile

  datatype Result<T> = Success(value: T) | Failure(error: Error)

  /** `r` is `x` truncated toward zero: the largest integer not above `x`
      when `x` is non-negative, the smallest not below it otherwise. */
  predicate TruncatedFrom(r: int, x: real) {
    (0.0 <= x ==> r as real <= x < r as real + 1.0) &&
    (x < 0.0 ==> r as real - 1.0 < x <= r as real)
  }

  /** Python's `int()` on a float: truncation toward zero. */
  function Trunc(x: real): (r: int)
    ensures 0.0 <= x ==> 0 <= r && r as real <= x < r as real + 1.0
    ensures x < 0.0 ==> r <= 0 && r as real - 1.0 < x <= r as real
  {
    if x >= 0.0 then x.Floor else -((-x).Floor)
  }

  lemma TruncTruncates(x: real)
    ensures TruncatedFrom(Trunc(x), x)
  {
  }

  /** Truncation never reverses the order of two reals. */
  lemma TruncMonotone(x: real, y: real)
    requires x <= y
    ensures Trunc(x) <= Trunc(y)
  {
    if 0.0 <= x {
    } else if y < 0.0 {
    } else {
    }
  }

  /** On an integer-valued real, truncation gives that integer back. */
  lemma TruncOfInt(n: int)
    ensures Trunc(n as real) == n
  {
  }
}

=== FILE: sliding_window.dfy ===
/**
 The sliding-window scan: one pass over the whole image estimates the typical
 object size, the size fixes a square window and two strides, the windows are
 visited row by row, and the pooled detections are deduplicated.
 */
module SlidingWindow {
  import opened Detections
  import opened TileMapping
  import opened Suppression

  // ---------------------------------------------------------------------
  // Scale estimate: truncated means of the first pass's box extents
  // ---------------------------------------------------------------------

  function Sum(xs: seq<int>): int {
    if |xs| == 0 then 0 else Sum(xs[..|xs| - 1]) + xs[|xs| - 1]
  }

  lemma {:induction false} SumBounds(xs: seq<int>, lo: int, hi: int)
    requires forall k :: 0 <= k < |xs| ==> lo <= xs[k] <= hi
    ensures lo * |xs| <= Sum(xs) <= hi * |xs|
  {
    if |xs| > 0 {
      var n := |xs| - 1;
      SumBounds(xs[..n], lo, hi);
      assert Sum(xs) == Sum(xs[..n]) + xs[n];
      MulSucc(n, lo);
      MulSucc(n, hi);
    }
  }

  /** The mean of the values, truncated toward zero as `int()` truncates
      the float mean. */
  function TruncatedMean(xs: seq<int>): (m: int)
    requires |xs| > 0
    ensures 0 <= Sum(xs) ==> m * |xs| <= Sum(xs) < (m + 1) * |xs|
    ensures Sum(xs) < 0 ==> (m - 1) * |xs| < Sum(xs) <= m * |xs|
  {
    TruncDiv(Sum(xs), |xs|);
    Trunc(Sum(xs) as real / |xs| as real)
  }

  /** Truncating the quotient `s / n` brackets `s` between two multiples of
      `n`, on the side of zero that `s` is on. */
  lemma TruncDiv(s: int, n: int)
    requires 0 < n
    ensures var m := Trunc(s as real / n as real);
            (0 <= s ==> m * n <= s < (m + 1) * n) &&
            (s < 0 ==> (m - 1) * n < s <= m * n)
  {
    var q := s as real / n as real;
    assert q * n as real == s as real;
    if 0 <= s {
      assert 0.0 <= q by {
        if q < 0.0 { RealMulNegative(q, n as real); }
      }
      Bracket(s, n, Trunc(q), q);
    } else {
      assert q < 0.0 by {
        if 0.0 <= q { RealMulLe(0.0, q, n as real); }
      }
      BracketBelow(s, n, Trunc(q), q);
    }
  }

  /** `q * n == s` with `q` in `[k, k + 1)` puts `s` in `[k * n, (k + 1) * n)`. */
  lemma Bracket(s: int, n: int, k: int, q: real)
    requires 0 < n && q * n as real == s as real
    requires k as real <= q < k as real + 1.0
    ensures k * n <= s < (k + 1) * n
  {
    RealMulLe(k as real, q, n as real);
    RealMulLt(q, k as real + 1.0, n as real);
    IntMulCast(k, n);
    IntMulCast(k + 1, n);
  }

  /** `q * n == s` with `q` in `(k - 1, k]` puts `s` in `((k - 1) * n, k * n]`. */
  lemma BracketBelow(s: int, n: int, k: int, q: real)
    requires 0 < n && q * n as real == s as real
    requires k as real - 1.0 < q <= k as real
    ensures (k - 1) * n < s <= k * n
  {
    RealMulLt(k as real - 1.0, q, n as real);
    RealMulLe(q, k as real, n as real);
    IntMulCast(k - 1, n);
    IntMulCast(k, n);
  }

  lemma IntMulCast(a: int, b: int)
    ensures (a * b) as real == a as real * b as real
  {
  }

  lemma RealMulLe(a: real, b: real, c: real)
    requires a <= b && 0.0 < c
    ensures a * c <= b * c
  {
    assert b * c - a * c == (b - a) * c;
  }

  lemma RealMulLt(a: real, b: real, c: real)
    requires a < b && 0.0 < c
    ensures a * c < b * c
  {
    assert b * c - a * c == (b - a) * c;
  }

  lemma RealMulNegative(a: real, c: real)
    requires a < 0.0 && 0.0 < c
    ensures a * c < 0.0
  {
    RealMulLt(a, 0.0, c);
  }

  /** The truncated mean of values in `[lo, hi]` is again in `[lo, hi]`. */
  lemma MeanBetween(xs: seq<int>, lo: int, hi: int)
    requires |xs| > 0
    requires forall k :: 0 <= k < |xs| ==> lo <= xs[k] <= hi
    ensures lo <= TruncatedMean(xs) <= hi
  {
    SumBounds(xs, lo, hi);
    var n, m := |xs|, TruncatedMean(xs);
    if m < lo {
      MulMonotone(m + 1, lo, n);
      MulMonotone(m, lo - 1, n);
      MulSucc(lo - 1, n);
    }
    if hi < m {
      MulMonotone(hi + 1, m, n);
      MulMonotone(hi, m - 1, n);
      MulSucc(hi, n);
    }
  }

  /** The width `xmax - xmin` of each box. */
  function Widths(ds: seq<Detection>): (ws: seq<int>)
    ensures |ws| == |ds|
  {
    seq(|ds|, k requires 0 <= k < |ds| => ds[k].xmax - ds[k].xmin)
  }

  /** The height `ymax - ymin` of each box. */
  function Heights(ds: seq<Detection>): (hs: seq<int>)
    ensures |hs| == |ds|
  {
    seq(|ds|, k requires 0 <= k < |ds| => ds[k].ymax - ds[k].ymin)
  }

  /** The scan geometry fixed by the estimate. The source advances the
      column origin by the mean height and the row origin by the mean width,
      and sizes the square window by the mean height alone. */
  datatype Plan = Plan(meanDx: int, meanDy: int) {
    function Window(): int { 4 * meanDy }
    function ColumnStride(): int { meanDy }
    function RowStride(): int { meanDx }
  }

  function Estimate(first: seq<Detection>): Plan
    requires |first| > 0
  {
    Plan(TruncatedMean(Widths(first)), TruncatedMean(Heights(first)))
  }

  /** Boxes between `lo` and `hi` pixels wide and high give means, and so
      strides, in the same range, and a window four times the mean height. */
  lemma EstimateBetween(first: seq<Detection>, lo: int, hi: int)
    requires |first| > 0
    requires forall k :: 0 <= k < |first| ==> lo <= first[k].xmax - first[k].xmin <= hi
    requires forall k :: 0 <= k < |first| ==> lo <= first[k].ymax - first[k].ymin <= hi
    ensures lo <= Estimate(first).meanDx <= hi && lo <= Estimate(first).meanDy <= hi
    ensures 4 * lo <= Estimate(first).Window() <= 4 * hi
  {
    MeanBetween(Widths(first), lo, hi);
    MeanBetween(Heights(first), lo, hi);
  }

  /** One box from (10, 10) to (30, 30) gives both strides 20 and an 80 pixel
      window. */
  lemma EstimateExample()
    ensures var p := Estimate([Detection(0.9, "object", 10, 10, 30, 30)]);
            p == Plan(20, 20) && p.Window() == 80
  {
    var ds := [Detection(0.9, "object", 10, 10, 30, 30)];
    assert Widths(ds) == [20] && Heights(ds) == [20];
    assert Sum([20]) == Sum([]) + 20;
    TruncOfInt(20);
  }

  // ---------------------------------------------------------------------
  // Window origins along one axis
  // ---------------------------------------------------------------------

  lemma MulMonotone(a: int, b: int, s: int)
    requires a <= b && 0 <= s
    ensures a * s <= b * s
  {
    assert b * s - a * s == (b - a) * s;
  }

  lemma MulSucc(k: int, s: int)
    ensures (k + 1) * s == k * s + s
  {
  }

  lemma MultipleMod(k: int, s: int)
    requires 1 <= s
    ensures (k * s) % s == 0
  {
    var q := (k * s) / s;
    var r := (k * s) % s;
    assert k * s == q * s + r && 0 <= r < s;
    assert r == (k - q) * s;
    if k - q >= 1 {
      MulMonotone(1, k - q, s);
    } else if k - q <= -1 {
      MulMonotone(k - q, -1, s);
    }
  }

  lemma DivQuotient(c: int, s: int)
    requires 0 <= c && 1 <= s
    ensures 0 <= c / s && (c / s) * s <= c < (c / s) * s + s
    ensures c % s == 0 ==> c == (c / s) * s
  {
  }

  /** The values `start, start + stride, ...` taken while below `limit`. */
  function Origins(start: int, stride: int, limit: int): (os: seq<int>)
    requires stride >= 1
    ensures forall k :: 0 <= k < |os| ==> start <= os[k] < limit
    ensures |os| == 0 <==> limit <= start
    ensures |os| > 0 ==> os[0] == start && os[|os| - 1] + stride >= limit
    decreases limit - start
  {
    if start < limit then [start] + Origins(start + stride, stride, limit) else []
  }

  /** The `k`-th origin is `start + k * stride`. */
  lemma {:induction false} OriginsAt(start: int, stride: int, limit: int, k: nat)
    requires stride >= 1 && k < |Origins(start, stride, limit)|
    ensures Origins(start, stride, limit)[k] == start + k * stride
    decreases k
  {
    if k > 0 {
      OriginsAt(start + stride, stride, limit, k - 1);
      MulSucc(k - 1, stride);
    }
  }

  /** The origins are exactly the multiples of the stride below the limit. */
  lemma OriginsExactly(stride: int, limit: int, x: int)
    requires stride >= 1
    ensures x in Origins(0, stride, limit) <==> 0 <= x < limit && x % stride == 0
  {
    if 0 <= x < limit && x % stride == 0 {
      MultipleIsOrigin(stride, limit, x);
    }
    if x in Origins(0, stride, limit) {
      OriginIsMultiple(stride, limit, x);
    }
  }

  lemma MultipleIsOrigin(stride: int, limit: int, x: int)
    requires stride >= 1 && 0 <= x < limit && x % stride == 0
    ensures x in Origins(0, stride, limit)
  {
    var os := Origins(0, stride, limit);
    var k := x / stride;
    DivQuotient(x, stride);
    var last := |os| - 1;
    OriginsAt(0, stride, limit, last);
    if k > last {
      MulMonotone(last + 1, k, stride);
      MulSucc(last, stride);
      assert false;
    }
    OriginsAt(0, stride, limit, k);
    assert os[k] == x;
  }

  lemma OriginIsMultiple(stride: int, limit: int, x: int)
    requires stride >= 1 && x in Origins(0, stride, limit)
    ensures 0 <= x < limit && x % stride == 0
  {
    var os := Origins(0, stride, limit);
    var k :| 0 <= k < |os| && os[k] == x;
    OriginsAt(0, stride, limit, k);
    MultipleMod(k, stride);
  }

  /** A 100-pixel axis scanned with stride 20 starts windows at 0, 20, 40,
      60 and 80: the loop runs while the origin is below 99. */
  lemma OriginsExample()
    ensures Origins(0, 20, 100 - 1) == [0, 20, 40, 60, 80]
  {
    assert Origins(100, 20, 99) == [];
  }

  // ---------------------------------------------------------------------
  // The tiles and what they yield
  // ---------------------------------------------------------------------

  /** The window at origin `(x0, y0)`. */
  function Tile(img: Image, cutoff: real, names: map<int, string>, detect: Detector,
                window: int, x0: int, y0: int): Result<seq<Detection>>
  {
    InferPart(img, cutoff, names, detect, x0, y0, x0 + window, y0 + window)
  }

  /** What the window at each origin yields. */
  type Tiler = (int, int) -> Result<seq<Detection>>

  /** The windows of one image, one detector and one window size. */
  function Windows(img: Image, cutoff: real, names: map<int, string>, detect: Detector, window: int): Tiler
  {
    (x0: int, y0: int) => Tile(img, cutoff, names, detect, window, x0, y0)
  }

  /** `first` followed by `rest`: the first failure, in order, ends the
      run; otherwise the detections are concatenated. */
  function Then(first: Result<seq<Detection>>, rest: Result<seq<Detection>>): Result<seq<Detection>>
  {
    match first
    case Failure(e) => Failure(e)
    case Success(ds) =>
      match rest
      case Failure(e) => Failure(e)
      case Success(more) => Success(ds + more)
  }

  /** Appending in two steps or in one gives the same run. */
  lemma ThenStep(acc: seq<Detection>, part: seq<Detection>, rest: Result<seq<Detection>>)
    ensures Then(Success(acc), Then(Success(part), rest)) == Then(Success(acc + part), rest)
  {
    if rest.Success? {
      assert acc + (part + rest.value) == (acc + part) + rest.value;
    }
  }

  /** An empty run on either side changes nothing. */
  lemma ThenEmpty(acc: seq<Detection>, rest: Result<seq<Detection>>)
    ensures Then(Success([]), rest) == rest
    ensures Then(Success(acc), Success([])) == Success(acc)
  {
    if rest.Success? {
      assert [] + rest.value == rest.value;
    }
    assert acc + [] == acc;
  }

  /** The detections of one row of windows, in column order. */
  function RowDetections(tiles: Tiler, xs: seq<int>, y0: int): Result<seq<Detection>>
  {
    if |xs| == 0 then Success([])
    else Then(tiles(xs[0], y0), RowDetections(tiles, xs[1..], y0))
  }

  /** The detections of all rows, row after row. */
  function GridDetections(tiles: Tiler, xs: seq<int>, ys: seq<int>): Result<seq<Detection>>
  {
    if |ys| == 0 then Success([])
    else Then(RowDetections(tiles, xs, ys[0]), GridDetections(tiles, xs, ys[1..]))
  }

  /** Everything the scan of a plan collects, before deduplication. */
  function ScanDetections(img: Image, cutoff: real, names: map<int, string>, detect: Detector, p: Plan): Result<seq<Detection>>
    requires p.meanDx >= 1 && p.meanDy >= 1
  {
    GridDetections(Windows(img, cutoff, names, detect, p.Window()),
                   Origins(0, p.ColumnStride(), img.width - 1),
                   Origins(0, p.RowStride(), img.height - 1))
  }

  /** A window of at least one pixel whose origin lies inside the image
      keeps part of it, so the resize step accepts it. */
  lemma TileSucceeds(img: Image, cutoff: real, names: map<int, string>, detect: Detector, window: int, x0: int, y0: int)
    requires 1 <= window && 0 <= x0 < img.width && 0 <= y0 < img.height
    ensures SliceLength(x0, x0 + window, img.width) >= 1
    ensures SliceLength(y0, y0 + window, img.height) >= 1
    ensures Tile(img, cutoff, names, detect, window, x0, y0).Success?
  {
  }

  lemma RowUnfold(tiles: Tiler, stride: int, x0: int, limit: int, y0: int)
    requires 1 <= stride && x0 < limit
    ensures RowDetections(tiles, Origins(x0, stride, limit), y0)
            == Then(tiles(x0, y0), RowDetections(tiles, Origins(x0 + stride, stride, limit), y0))
  {
    var os := Origins(x0, stride, limit);
    assert os[0] == x0 && os[1..] == Origins(x0 + stride, stride, limit);
  }

  lemma GridUnfold(tiles: Tiler, xs: seq<int>, stride: int, y0: int, limit: int)
    requires 1 <= stride && y0 < limit
    ensures GridDetections(tiles, xs, Origins(y0, stride, limit))
            == Then(RowDetections(tiles, xs, y0), GridDetections(tiles, xs, Origins(y0 + stride, stride, limit)))
  {
    var os := Origins(y0, stride, limit);
    assert os[0] == y0 && os[1..] == Origins(y0 + stride, stride, limit);
  }

  /** The windows of row `y0` from column `x0` on, as the scan loop walks
      them. */
  function RowFrom(tiles: Tiler, stride: int, limit: int, y0: int, x0: int): Result<seq<Detection>>
    requires 1 <= stride
    decreases limit - x0
  {
    if limit <= x0 then Success([])
    else Then(tiles(x0, y0), RowFrom(tiles, stride, limit, y0, x0 + stride))
  }

  lemma RowFromStep(tiles: Tiler, stride: int, limit: int, y0: int, x0: int)
    requires 1 <= stride && x0 < limit
    ensures RowFrom(tiles, stride, limit, y0, x0)
            == Then(tiles(x0, y0), RowFrom(tiles, stride, limit, y0, x0 + stride))
  {
  }

  /** Walking the row from `x0` visits exactly the windows at the origins
      from `x0` on. */
  lemma {:induction false} RowFromOrigins(tiles: Tiler, stride: int, limit: int, y0: int, x0: int)
    requires 1 <= stride
    ensures RowFrom(tiles, stride, limit, y0, x0) == RowDetections(tiles, Origins(x0, stride, limit), y0)
    decreases limit - x0
  {
    if x0 < limit {
      calc {
        RowFrom(tiles, stride, limit, y0, x0);
        { RowFromStep(tiles, stride, limit, y0, x0); }
        Then(tiles(x0, y0), RowFrom(tiles, stride, limit, y0, x0 + stride));
        { RowFromOrigins(tiles, stride, limit, y0, x0 + stride); }
        Then(tiles(x0, y0), RowDetections(tiles, Origins(x0 + stride, stride, limit), y0));
        { RowUnfold(tiles, stride, x0, limit, y0); }
        RowDetections(tiles, Origins(x0, stride, limit), y0);
      }
    } else {
      assert Origins(x0, stride, limit) == [];
    }
  }

  /** One row of windows at height `y0`, left to right; every window of the
      row must succeed. */
  method ScanRow(tiles: Tiler, stride: int, limit: int, y0: int) returns (row: seq<Detection>)
    requires 1 <= stride
    requires forall x0 :: 0 <= x0 < limit ==> tiles(x0, y0).Success?
    ensures RowDetections(tiles, Origins(0, stride, limit), y0) == Success(row)
  {
    ghost var all := RowFrom(tiles, stride, limit, y0, 0);
    RowFromOrigins(tiles, stride, limit, y0, 0);
    row := [];
    var x0 := 0;
    ThenEmpty(row, all);
    while x0 < limit
      invariant 0 <= x0
      invariant Then(Success(row), RowFrom(tiles, stride, limit, y0, x0)) == all
      decreases limit - x0
    {
      var part := tiles(x0, y0).value;
      ThenStep(row, part, RowFrom(tiles, stride, limit, y0, x0 + stride));
      row := row + part;
      x0 := x0 + stride;
    }
    ThenEmpty(row, all);
  }

  /** The scan itself: rows from the top, each row's detections appended in
      turn. */
  method ScanTiles(img: Image, cutoff: real, names: map<int, string>, detect: Detector, p: Plan)
    returns (dets: seq<Detection>)
    requires p.meanDx >= 1 && p.meanDy >= 1
    ensures ScanDetections(img, cutoff, names, detect, p) == Success(dets)
  {
    var tiles := Windows(img, cutoff, names, detect, p.Window());
    var width: int := img.width - 1;
    var limit: int := img.height - 1;
    assert ScanDetections(img, cutoff, names, detect, p)
           == GridDetections(tiles, Origins(0, p.ColumnStride(), width), Origins(0, p.RowStride(), limit));
    GridSucceeds(img, cutoff, names, detect, p.Window(), width, limit);
    dets := ScanGrid(tiles, p.ColumnStride(), p.RowStride(), width, limit);
  }

  /** Every window whose origin lies inside the image succeeds. */
  lemma GridSucceeds(img: Image, cutoff: real, names: map<int, string>, detect: Detector,
                     window: int, width: int, limit: int)
    requires 1 <= window && width <= img.width && limit <= img.height
    ensures forall x0, y0 :: 0 <= x0 < width && 0 <= y0 < limit ==>
              Windows(img, cutoff, names, detect, window)(x0, y0).Success?
  {
    forall x0, y0 | 0 <= x0 < width && 0 <= y0 < limit
      ensures Windows(img, cutoff, names, detect, window)(x0, y0).Success?
    {
      TileSucceeds(img, cutoff, names, detect, window, x0, y0);
    }
  }

  /** The rows from height `y0` on, as the scan loop walks them. */
  function GridFrom(tiles: Tiler, xs: seq<int>, stride: int, limit: int, y0: int): Result<seq<Detection>>
    requires 1 <= stride
    decreases limit - y0
  {
    if limit <= y0 then Success([])
    else Then(RowDetections(tiles, xs, y0), GridFrom(tiles, xs, stride, limit, y0 + stride))
  }

  lemma GridFromStep(tiles: Tiler, xs: seq<int>, stride: int, limit: int, y0: int)
    requires 1 <= stride && y0 < limit
    ensures GridFrom(tiles, xs, stride, limit, y0)
            == Then(RowDetections(tiles, xs, y0), GridFrom(tiles, xs, stride, limit, y0 + stride))
  {
  }

  /** Walking the rows from `y0` visits exactly the rows at the origins from
      `y0` on. */
  lemma {:induction false} GridFromOrigins(tiles: Tiler, xs: seq<int>, stride: int, limit: int, y0: int)
    requires 1 <= stride
    ensures GridFrom(tiles, xs, stride, limit, y0) == GridDetections(tiles, xs, Origins(y0, stride, limit))
    decreases limit - y0
  {
    if y0 < limit {
      calc {
        GridFrom(tiles, xs, stride, limit, y0);
        { GridFromStep(tiles, xs, stride, limit, y0); }
        Then(RowDetections(tiles, xs, y0), GridFrom(tiles, xs, stride, limit, y0 + stride));
        { GridFromOrigins(tiles, xs, stride, limit, y0 + stride); }
        Then(RowDetections(tiles, xs, y0), GridDetections(tiles, xs, Origins(y0 + stride, stride, limit)));
        { GridUnfold(tiles, xs, stride, y0, limit); }
        GridDetections(tiles, xs, Origins(y0, stride, limit));
      }
    } else {
      assert Origins(y0, stride, limit) == [];
    }
  }

  /** A row whose windows all succeed succeeds. */
  lemma {:induction false} RowAllSucceed(tiles: Tiler, xs: seq<int>, y0: int)
    requires forall k :: 0 <= k < |xs| ==> tiles(xs[k], y0).Success?
    ensures RowDetections(tiles, xs, y0).Success?
  {
    if |xs| > 0 {
      RowAllSucceed(tiles, xs[1..], y0);
    }
  }

  /** A grid whose rows all succeed succeeds. */
  lemma {:induction false} GridAllSucceed(tiles: Tiler, xs: seq<int>, ys: seq<int>)
    requires forall k :: 0 <= k < |ys| ==> RowDetections(tiles, xs, ys[k]).Success?
    ensures GridDetections(tiles, xs, ys).Success?
  {
    if |ys| > 0 {
      GridAllSucceed(tiles, xs, ys[1..]);
    }
  }

  /** For means of at least one pixel the scan never raises: every window
      starts inside the image. */
  lemma ScanSucceeds(img: Image, cutoff: real, names: map<int, string>, detect: Detector, p: Plan)
    requires p.meanDx >= 1 && p.meanDy >= 1
    ensures ScanDetections(img, cutoff, names, detect, p).Success?
  {
    var tiles := Windows(img, cutoff, names, detect, p.Window());
    var width: int := img.width - 1;
    var limit: int := img.height - 1;
    var xs := Origins(0, p.ColumnStride(), width);
    var ys := Origins(0, p.RowStride(), limit);
    GridSucceeds(img, cutoff, names, detect, p.Window(), width, limit);
    forall j | 0 <= j < |ys|
      ensures RowDetections(tiles, xs, ys[j]).Success?
    {
      RowAllSucceed(tiles, xs, ys[j]);
    }
    GridAllSucceed(tiles, xs, ys);
  }

  /** The row-by-row loop over any grid of windows that all succeed. */
  method ScanGrid(tiles: Tiler, columnStride: int, rowStride: int, width: int, limit: int)
    returns (dets: seq<Detection>)
    requires 1 <= columnStride && 1 <= rowStride
    requires forall x0, y0 :: 0 <= x0 < width && 0 <= y0 < limit ==> tiles(x0, y0).Success?
    ensures GridDetections(tiles, Origins(0, columnStride, width), Origins(0, rowStride, limit)) == Success(dets)
  {
    ghost var xs := Origins(0, columnStride, width);
    ghost var all := GridFrom(tiles, xs, rowStride, limit, 0);
    dets := [];
    var y0 := 0;
    ThenEmpty(dets, all);
    while y0 < limit
      invariant 0 <= y0
      invariant Then(Success(dets), GridFrom(tiles, xs, rowStride, limit, y0)) == all
      decreases limit - y0
    {
      var row := ScanRow(tiles, columnStride, width, y0);
      ThenStep(dets, row, GridFrom(tiles, xs, rowStride, limit, y0 + rowStride));
      dets := dets + row;
      y0 := y0 + rowStride;
    }
    ThenEmpty(dets, all);
    GridFromOrigins(tiles, xs, rowStride, limit, 0);
  }

  // ---------------------------------------------------------------------
  // Coverage
  // ---------------------------------------------------------------------

  /** Some window starting at one of `os` and `window` pixels long spans
      pixel `c`. */
  ghost predicate Covered(os: seq<int>, window: int, c: int) {
    exists k :: 0 <= k < |os| && os[k] <= c < os[k] + window
  }

  /** Windows no shorter than their stride leave no gap up to the last
      origin's window. */
  lemma CoveredUpTo(stride: int, window: int, limit: int, c: int)
    requires 1 <= stride <= window && 0 < limit
    requires 0 <= c < limit + window - stride
    ensures Covered(Origins(0, stride, limit), window, c)
  {
    var os := Origins(0, stride, limit);
    var k := c / stride;
    DivQuotient(c, stride);
    if k < |os| {
      OriginsAt(0, stride, limit, k);
      assert os[k] <= c < os[k] + window;
    } else {
      var last := |os| - 1;
      OriginsAt(0, stride, limit, last);
      MulMonotone(last, k, stride);
      assert os[last] <= c < os[last] + window;
    }
  }

  /** Across the image the windows reach every column: the column stride is
      a quarter of the window. */
  lemma ColumnsCovered(img: Image, p: Plan, c: int)
    requires p.meanDy >= 1 && 2 <= img.width && 0 <= c < img.width
    ensures Covered(Origins(0, p.ColumnStride(), img.width - 1), p.Window(), c)
  {
    CoveredUpTo(p.ColumnStride(), p.Window(), img.width - 1, c);
  }

  /** Down the image the windows reach every row but possibly the last,
      provided the row stride is at most the window; a strictly smaller
      row stride reaches the last row as well. */
  lemma RowsCovered(img: Image, p: Plan, c: int)
    requires 1 <= p.meanDx <= p.Window() && 2 <= img.height
    requires 0 <= c < img.height - 1 || (0 <= c < img.height && p.meanDx < p.Window())
    ensures Covered(Origins(0, p.RowStride(), img.height - 1), p.Window(), c)
  {
    CoveredUpTo(p.RowStride(), p.Window(), img.height - 1, c);
  }

  /** A row stride longer than the window skips the rows between the first
      window's bottom and the second row's top. */
  lemma RowGap(img: Image, p: Plan)
    requires 1 <= p.meanDy && p.Window() < p.meanDx && p.Window() < img.height - 1
    ensures !Covered(Origins(0, p.RowStride(), img.height - 1), p.Window(), p.Window())
  {
    var os := Origins(0, p.RowStride(), img.height - 1);
    forall k | 0 <= k < |os|
      ensures !(os[k] <= p.Window() < os[k] + p.Window())
    {
      OriginsAt(0, p.RowStride(), img.height - 1, k);
      if k >= 1 {
        MulMonotone(1, k, p.meanDx);
      }
    }
  }

  // ---------------------------------------------------------------------
  // What the scan can yield
  // ---------------------------------------------------------------------

  /** Every detection of a successful run passes `keep`. */
  ghost predicate AllKeep(run: Result<seq<Detection>>, keep: Detection -> bool) {
    run.Success? ==> forall d :: d in run.value ==> keep(d)
  }

  lemma ThenKeeps(first: Result<seq<Detection>>, rest: Result<seq<Detection>>, keep: Detection -> bool)
    requires AllKeep(first, keep) && AllKeep(rest, keep)
    ensures AllKeep(Then(first, rest), keep)
  {
  }

  lemma {:induction false} RowKeeps(tiles: Tiler, xs: seq<int>, y0: int, keep: Detection -> bool)
    requires forall k :: 0 <= k < |xs| ==> AllKeep(tiles(xs[k], y0), keep)
    ensures AllKeep(RowDetections(tiles, xs, y0), keep)
  {
    if |xs| > 0 {
      RowKeeps(tiles, xs[1..], y0, keep);
      ThenKeeps(tiles(xs[0], y0), RowDetections(tiles, xs[1..], y0), keep);
    }
  }

  lemma {:induction false} GridKeeps(tiles: Tiler, xs: seq<int>, ys: seq<int>, keep: Detection -> bool)
    requires forall j, k :: 0 <= j < |ys| && 0 <= k < |xs| ==> AllKeep(tiles(xs[k], ys[j]), keep)
    ensures AllKeep(GridDetections(tiles, xs, ys), keep)
  {
    if |ys| > 0 {
      RowKeeps(tiles, xs, ys[0], keep);
      GridKeeps(tiles, xs, ys[1..], keep);
      ThenKeeps(RowDetections(tiles, xs, ys[0]), GridDetections(tiles, xs, ys[1..]), keep);
    }
  }

  /** The rectangle of the whole image. */
  function Frame(img: Image): Region {
    Region(0, 0, img.width, img.height)
  }

  /** Detections scoring above the cutoff. */
  function Above(cutoff: real): Detection -> bool {
    (d: Detection) => d.score > cutoff
  }

  /** Detections inside the image. */
  function InFrame(img: Image): Detection -> bool {
    (d: Detection) => InsideRegion(d, Frame(img))
  }

  /** One window yields only detections above the cutoff, and, with a
      detector whose boxes stay in the unit square and an origin inside the
      image's quadrant, only detections inside the image. */
  lemma WindowKeeps(img: Image, cutoff: real, names: map<int, string>, detect: Detector, window: int, x0: int, y0: int)
    ensures AllKeep(Windows(img, cutoff, names, detect, window)(x0, y0), Above(cutoff))
    ensures Normalised(detect) && 0 <= x0 && 0 <= y0 ==>
              AllKeep(Windows(img, cutoff, names, detect, window)(x0, y0), InFrame(img))
  {
    WindowAbove(img, cutoff, names, detect, window, x0, y0);
    if Normalised(detect) && 0 <= x0 && 0 <= y0 {
      WindowInFrame(img, cutoff, names, detect, window, x0, y0);
    }
  }

  lemma WindowAbove(img: Image, cutoff: real, names: map<int, string>, detect: Detector, window: int, x0: int, y0: int)
    ensures AllKeep(Windows(img, cutoff, names, detect, window)(x0, y0), Above(cutoff))
  {
    WindowIsPart(img, cutoff, names, detect, window, x0, y0);
    PartAbove(img, cutoff, names, detect, x0, y0, x0 + window, y0 + window);
  }

  lemma WindowInFrame(img: Image, cutoff: real, names: map<int, string>, detect: Detector, window: int, x0: int, y0: int)
    requires Normalised(detect) && 0 <= x0 && 0 <= y0
    ensures AllKeep(Windows(img, cutoff, names, detect, window)(x0, y0), InFrame(img))
  {
    WindowIsPart(img, cutoff, names, detect, window, x0, y0);
    PartInFrame(img, cutoff, names, detect, x0, y0, x0 + window, y0 + window);
  }

  lemma WindowIsPart(img: Image, cutoff: real, names: map<int, string>, detect: Detector, window: int, x0: int, y0: int)
    ensures Windows(img, cutoff, names, detect, window)(x0, y0)
            == InferPart(img, cutoff, names, detect, x0, y0, x0 + window, y0 + window)
  {
  }

  lemma PartAbove(img: Image, cutoff: real, names: map<int, string>, detect: Detector,
                  ax0: int, ay0: int, ax1: int, ay1: int)
    ensures AllKeep(InferPart(img, cutoff, names, detect, ax0, ay0, ax1, ay1), Above(cutoff))
  {
  }

  lemma PartInFrame(img: Image, cutoff: real, names: map<int, string>, detect: Detector,
                    ax0: int, ay0: int, ax1: int, ay1: int)
    requires Normalised(detect) && 0 <= ax0 && 0 <= ay0
    ensures AllKeep(InferPart(img, cutoff, names, detect, ax0, ay0, ax1, ay1), InFrame(img))
  {
    InferPartInside(img, cutoff, names, detect, ax0, ay0, ax1, ay1);
  }

  /** Every detection the scan collects clears the cutoff and, with a
      detector whose boxes stay in the unit square, lies inside the image. */
  lemma ScanSound(img: Image, cutoff: real, names: map<int, string>, detect: Detector, p: Plan)
    requires p.meanDx >= 1 && p.meanDy >= 1
    ensures AllKeep(ScanDetections(img, cutoff, names, detect, p), Above(cutoff))
    ensures Normalised(detect) ==> AllKeep(ScanDetections(img, cutoff, names, detect, p), InFrame(img))
  {
    var tiles := Windows(img, cutoff, names, detect, p.Window());
    var xs := Origins(0, p.ColumnStride(), img.width - 1);
    var ys := Origins(0, p.RowStride(), img.height - 1);
    forall j, k | 0 <= j < |ys| && 0 <= k < |xs|
      ensures AllKeep(tiles(xs[k], ys[j]), Above(cutoff))
      ensures Normalised(detect) ==> AllKeep(tiles(xs[k], ys[j]), InFrame(img))
    {
      WindowKeeps(img, cutoff, names, detect, p.Window(), xs[k], ys[j]);
    }
    GridKeeps(tiles, xs, ys, Above(cutoff));
    if Normalised(detect) {
      GridKeeps(tiles, xs, ys, InFrame(img));
    }
  }

  // ---------------------------------------------------------------------
  // Where the source's loop breaks down
  // ---------------------------------------------------------------------

  /** A mean height of zero or less: the second window of the first row
      (origin `meanDy`, end `5 * meanDy`) has no columns, so the resize step
      raises, unless the first window already did. */
  lemma NonPositiveWindowFails(img: Image, p: Plan)
    requires p.meanDy <= 0 && 2 <= img.width && 2 <= img.height
    ensures 0 < img.width - 1 && 0 < img.height - 1 && p.ColumnStride() < img.width - 1
    ensures forall cutoff, names, detect ::
              Tile(img, cutoff, names, detect, p.Window(), p.ColumnStride(), 0).Failure?
  {
  }

  /** A negative mean width moves the row origin up and out of the image:
      the loop condition `y0 < H - 1` keeps holding, and once the origin is
      far enough above the image its window has no rows. */
  lemma NegativeRowStrideFails(img: Image, p: Plan)
    requires p.meanDx < 0 && p.meanDy >= 1
    ensures var k := img.height + p.Window();
            var y0 := k * p.RowStride();
            y0 <= 0 && SliceLength(y0, y0 + p.Window(), img.height) == 0
    ensures var y0 := (img.height + p.Window()) * p.RowStride();
            2 <= img.width && 2 <= img.height ==> 0 < img.width - 1 && y0 < img.height - 1
    ensures var y0 := (img.height + p.Window()) * p.RowStride();
            forall cutoff, names, detect ::
              Tile(img, cutoff, names, detect, p.Window(), 0, y0).Failure?
  {
    var k := img.height + p.Window();
    MulMonotone(p.RowStride(), -1, k);
    assert k * p.RowStride() <= -k;
  }

  /** A mean width of zero never moves the row origin: the first row is
      scanned again and again, and every one of its windows succeeds. */
  lemma ZeroRowStrideRepeats(img: Image, cutoff: real, names: map<int, string>, detect: Detector, p: Plan, k: nat, x0: int)
    requires p.meanDx == 0 && p.meanDy >= 1 && 2 <= img.height
    requires 0 <= x0 < img.width - 1
    ensures k * p.RowStride() == 0 < img.height - 1
    ensures Tile(img, cutoff, names, detect, p.Window(), x0, k * p.RowStride()).Success?
  {
    assert SliceLength(x0, x0 + p.Window(), img.width) >= 1;
  }

  // ---------------------------------------------------------------------
  // The whole pipeline
  // ---------------------------------------------------------------------

  /** What a run yields when it does not raise: nothing found in the first
      pass (no scan, no detections), the deduplicated scan, or a scan that
      never finishes because the row origin never moves. */
  datatype Outcome = NoEstimate | Detected(detections: seq<Detection>) | Endless

  /** The full-image pass that estimates the object size. */
  function FirstPass(img: Image, cutoff: real, names: map<int, string>, detect: Detector): Result<seq<Detection>>
  {
    InferPartPercent(img, cutoff, names, detect, 0.0, 0.0, 1.0, 1.0)
  }

  /** The overlap threshold of the final deduplication. */
  const MergeThreshold: real := 0.5

  /** What a completed run reports: records of the scan, each above the
      cutoff and (with a well-behaved detector) inside the image, best first,
      no two overlapping by more than the merge threshold. */
  lemma DetectedSound(img: Image, cutoff: real, names: map<int, string>, detect: Detector, p: Plan)
    requires p.meanDx >= 1 && p.meanDy >= 1
    ensures ScanDetections(img, cutoff, names, detect, p).Success?
    ensures var scan := ScanDetections(img, cutoff, names, detect, p).value;
            var out := NonMaxSuppression(scan, MergeThreshold);
            (forall d :: d in out ==> d in scan && d.score > cutoff) &&
            (Normalised(detect) ==> forall d :: d in out ==> InsideRegion(d, Frame(img))) &&
            ScoresNonIncreasing(out) && WithinThreshold(out, MergeThreshold)
  {
    ScanSucceeds(img, cutoff, names, detect, p);
    var scan := ScanDetections(img, cutoff, names, detect, p).value;
    ScanSound(img, cutoff, names, detect, p);
    NmsSubList(scan, MergeThreshold);
    NmsOrder(scan, MergeThreshold);
    NmsWithinThreshold(scan, MergeThreshold);
    var out := NonMaxSuppression(scan, MergeThreshold);
    forall d | d in out
      ensures d in scan && d.score > cutoff
      ensures Normalised(detect) ==> InsideRegion(d, Frame(img))
    {
      assert Above(cutoff)(d);
      if Normalised(detect) {
        assert InFrame(img)(d);
      }
    }
  }

  method SlidingWindowInference(img: Image, cutoff: real, names: map<int, string>, detect: Detector)
    returns (r: Result<Outcome>)
    ensures FirstPass(img, cutoff, names, detect).Failure? ==> r == Failure(InvalidTile)
    ensures r == Success(NoEstimate) <==> FirstPass(img, cutoff, names, detect) == Success([])
    ensures var first := FirstPass(img, cutoff, names, detect);
            first.Success? && |first.value| > 0 ==>
              (r.Failure? <==> Estimate(first.value).meanDy <= 0 || Estimate(first.value).meanDx < 0) &&
              (r == Success(Endless) <==> Estimate(first.value).meanDy >= 1 && Estimate(first.value).meanDx == 0)
    ensures r.Success? && r.value.Detected? ==>
              var first := FirstPass(img, cutoff, names, detect);
              first.Success? && |first.value| > 0 &&
              var p := Estimate(first.value);
              p.meanDx >= 1 && p.meanDy >= 1 &&
              ScanDetections(img, cutoff, names, detect, p).Success? &&
              r.value.detections == NonMaxSuppression(ScanDetections(img, cutoff, names, detect, p).value, MergeThreshold)
  {
    var first := InferPartPercent(img, cutoff, names, detect, 0.0, 0.0, 1.0, 1.0);
    if first.Failure? {
      return Failure(first.error);
    }
    if |first.value| == 0 {
      return Success(NoEstimate);
    }
    var p := Estimate(first.value);
    if p.meanDy <= 0 || p.meanDx < 0 {
      return Failure(InvalidTile);
    }
    if p.meanDx == 0 {
      return Success(Endless);
    }
    var dets := ScanTiles(img, cutoff, names, detect, p);
    return Success(Detected(NonMaxSuppression(dets, MergeThreshold)));
  }
}

=== FILE: suppression.dfy ===
/**
 Greedy non-max suppression (`non_max_suppression` in model/model_tflite.py).

 Candidates are visited by ascending score (`np.argsort`); the highest
 remaining one is kept, and every other remaining candidate whose overlap
 ratio with it exceeds the threshold is dropped. The overlap ratio is the
 inclusive-pixel intersection divided by the area of the OTHER box, not IoU.
 */
module Suppression {
  import opened Detections

  // ---------------------------------------------------------------------
  // Box geometry (inclusive pixel convention)
  // ---------------------------------------------------------------------

  function Max(a: int, b: int): int { if a < b then b else a }
  function Min(a: int, b: int): int { if a < b then a else b }

  /** Area in inclusive pixels: each extent counts its end pixel. */
  function Area(d: Detection): int {
    (d.xmax - d.xmin + 1) * (d.ymax - d.ymin + 1)
  }

  /** The common part of two boxes in inclusive pixels; zero when they are
      apart along either axis. */
  function Intersection(a: Detection, b: Detection): int {
    Max(0, Min(a.xmax, b.xmax) - Max(a.xmin, b.xmin) + 1)
      * Max(0, Min(a.ymax, b.ymax) - Max(a.ymin, b.ymin) + 1)
  }

  /** `overlap > thresh`, where overlap = Intersection / Area(other) is computed
      as numpy does it: a zero area gives NaN for 0/0 (never above any
      threshold) and +inf for a positive numerator. */
  predicate Exceeds(kept: Detection, other: Detection, thresh: real) {
    var area := Area(other);
    var inter := Intersection(kept, other);
    if area == 0 then inter > 0 else (inter as real) / (area as real) > thresh
  }

  lemma ProductPositive(a: int, b: int)
    requires a > 0 && b > 0
    ensures a * b > 0
  {
  }

  lemma DivGreater(inter: real, area: real, thresh: real)
    requires area > 0.0
    ensures inter / area > thresh <==> inter > thresh * area
  {
    assert (inter / area) * area == inter;
    if inter / area > thresh {
      assert (inter / area) * area > thresh * area;
    }
    if inter > thresh * area {
      assert inter / area > (thresh * area) / area;
    }
  }

  /** For a non-negative threshold the float test is the cross-multiplied
      integer test `inter > thresh * area(other)` on boxes of positive area;
      a box of zero or negative area is never suppressed. */
  lemma ExceedsCrossMultiplied(kept: Detection, other: Detection, thresh: real)
    requires thresh >= 0.0
    ensures Exceeds(kept, other, thresh)
            <==> Area(other) > 0 && Intersection(kept, other) as real > thresh * Area(other) as real
  {
    var fx := other.xmax - other.xmin + 1;
    var fy := other.ymax - other.ymin + 1;
    var ix := Max(0, Min(kept.xmax, other.xmax) - Max(kept.xmin, other.xmin) + 1);
    var iy := Max(0, Min(kept.ymax, other.ymax) - Max(kept.ymin, other.ymin) + 1);
    assert Intersection(kept, other) == ix * iy;
    assert Area(other) == fx * fy;
    if fx > 0 && fy > 0 {
      ProductPositive(fx, fy);
      DivGreater(Intersection(kept, other) as real, Area(other) as real, thresh);
    } else {
      // the intersection is no wider (taller) than the other box itself
      assert ix == 0 || iy == 0;
      assert Intersection(kept, other) == 0;
      if Area(other) != 0 {
        assert (0 as real) / (Area(other) as real) == 0.0;
      }
    }
  }


  // ---------------------------------------------------------------------
  // Index sequences
  // ---------------------------------------------------------------------

  /** Every index addresses a candidate. */
  ghost predicate InRange(ds: seq<Detection>, idxs: seq<nat>) {
    forall k :: 0 <= k < |idxs| ==> idxs[k] < |ds|
  }

  /** No index occurs twice. */
  ghost predicate Distinct(idxs: seq<nat>) {
    forall a, b :: 0 <= a < b < |idxs| ==> idxs[a] != idxs[b]
  }

  /** Indices ordered by ascending score, as `np.argsort` leaves them. */
  ghost predicate Ascending(ds: seq<Detection>, idxs: seq<nat>)
    requires InRange(ds, idxs)
  {
    forall a, b :: 0 <= a < b < |idxs| ==> ds[idxs[a]].score <= ds[idxs[b]].score
  }

  /** Insertion of index `k` into an ascending index sequence, after every
      index whose score is not larger (so equal scores keep index order). */
  function Insert(ds: seq<Detection>, sorted: seq<nat>, k: nat): (r: seq<nat>)
    requires k < |ds| && InRange(ds, sorted)
    ensures |r| == |sorted| + 1
    ensures InRange(ds, r)
    decreases |sorted|
  {
    if |sorted| == 0 || ds[sorted[|sorted| - 1]].score <= ds[k].score then
      sorted + [k]
    else
      Insert(ds, sorted[..|sorted| - 1], k) + [sorted[|sorted| - 1]]
  }

  lemma {:induction false} InsertMember(ds: seq<Detection>, sorted: seq<nat>, k: nat, x: nat)
    requires k < |ds| && InRange(ds, sorted)
    ensures x in Insert(ds, sorted, k) <==> x in sorted || x == k
    decreases |sorted|
  {
    var n := |sorted|;
    if n > 0 && ds[sorted[n - 1]].score > ds[k].score {
      var init := sorted[..n - 1];
      InsertMember(ds, init, k, x);
      assert sorted == init + [sorted[n - 1]];
    }
  }

  lemma {:induction false} InsertAscending(ds: seq<Detection>, sorted: seq<nat>, k: nat)
    requires k < |ds| && InRange(ds, sorted) && Ascending(ds, sorted)
    ensures Ascending(ds, Insert(ds, sorted, k))
    decreases |sorted|
  {
    var n := |sorted|;
    var r := Insert(ds, sorted, k);
    if n == 0 || ds[sorted[n - 1]].score <= ds[k].score {
      assert r == sorted + [k];
      forall a, b | 0 <= a < b < |r|
        ensures ds[r[a]].score <= ds[r[b]].score
      {
        if b == n {
          assert r[a] == sorted[a];
          if a < n - 1 {
            assert ds[sorted[a]].score <= ds[sorted[n - 1]].score;
          }
        } else {
          assert r[a] == sorted[a] && r[b] == sorted[b];
        }
      }
    } else {
      var init := sorted[..n - 1];
      var top := sorted[n - 1];
      assert forall c :: 0 <= c < |init| ==> init[c] == sorted[c];
      InsertAscending(ds, init, k);
      var r0 := Insert(ds, init, k);
      assert r == r0 + [top];
      forall a | 0 <= a < |r0|
        ensures ds[r0[a]].score <= ds[top].score
      {
        var x := r0[a];
        assert x in r0;
        InsertMember(ds, init, k, x);
        if x != k {
          var c :| 0 <= c < |init| && init[c] == x;
          assert sorted[c] == x;
        }
      }
      forall a, b | 0 <= a < b < |r|
        ensures ds[r[a]].score <= ds[r[b]].score
      {
        if b == |r0| {
          assert r[a] == r0[a] && r[b] == top;
        } else {
          assert r[a] == r0[a] && r[b] == r0[b];
        }
      }
    }
  }

  lemma {:induction false} InsertDistinct(ds: seq<Detection>, sorted: seq<nat>, k: nat)
    requires k < |ds| && InRange(ds, sorted) && Distinct(sorted) && k !in sorted
    ensures Distinct(Insert(ds, sorted, k))
    decreases |sorted|
  {
    var n := |sorted|;
    var r := Insert(ds, sorted, k);
    if n == 0 || ds[sorted[n - 1]].score <= ds[k].score {
      assert r == sorted + [k];
      forall a, b | 0 <= a < b < |r|
        ensures r[a] != r[b]
      {
        if b == n {
          assert r[a] == sorted[a];
        } else {
          assert r[a] == sorted[a] && r[b] == sorted[b];
        }
      }
    } else {
      var init := sorted[..n - 1];
      var top := sorted[n - 1];
      assert forall c :: 0 <= c < |init| ==> init[c] == sorted[c];
      InsertDistinct(ds, init, k);
      var r0 := Insert(ds, init, k);
      assert r == r0 + [top];
      forall a, b | 0 <= a < b < |r|
        ensures r[a] != r[b]
      {
        if b == |r0| {
          var x := r0[a];
          assert r[a] == x && r[b] == top;
          assert x in r0;
          InsertMember(ds, init, k, x);
          if x != k {
            var c :| 0 <= c < |init| && init[c] == x;
            assert sorted[c] == x;
          }
        } else {
          assert r[a] == r0[a] && r[b] == r0[b];
        }
      }
    }
  }

  /** Stable argsort of the first `n` scores. */
  function ArgSortPrefix(ds: seq<Detection>, n: nat): (r: seq<nat>)
    requires n <= |ds|
    ensures |r| == n
    ensures InRange(ds, r)
  {
    if n == 0 then [] else Insert(ds, ArgSortPrefix(ds, n - 1), n - 1)
  }

  lemma {:induction false} ArgSortPrefixMember(ds: seq<Detection>, n: nat, x: nat)
    requires n <= |ds|
    ensures x in ArgSortPrefix(ds, n) <==> x < n
  {
    if n > 0 {
      ArgSortPrefixMember(ds, n - 1, x);
      InsertMember(ds, ArgSortPrefix(ds, n - 1), n - 1, x);
    }
  }

  lemma {:induction false} ArgSortPrefixSorted(ds: seq<Detection>, n: nat)
    requires n <= |ds|
    ensures Distinct(ArgSortPrefix(ds, n)) && Ascending(ds, ArgSortPrefix(ds, n))
  {
    if n > 0 {
      var prev := ArgSortPrefix(ds, n - 1);
      ArgSortPrefixSorted(ds, n - 1);
      ArgSortPrefixMember(ds, n - 1, n - 1);
      assert ArgSortPrefix(ds, n) == Insert(ds, prev, n - 1);
      InsertAscending(ds, prev, n - 1);
      InsertDistinct(ds, prev, n - 1);
    }
  }

  /** Every index once, in ascending score order. */
  function ArgSort(ds: seq<Detection>): (r: seq<nat>)
    ensures |r| == |ds|
    ensures InRange(ds, r) && Distinct(r) && Ascending(ds, r)
  {
    ArgSortPrefixSorted(ds, |ds|);
    ArgSortPrefix(ds, |ds|)
  }

  /** The argsort is a permutation of all candidate indices. */
  lemma ArgSortPermutation(ds: seq<Detection>)
    ensures forall x: nat :: x in ArgSort(ds) <==> x < |ds|
  {
    forall x: nat
      ensures x in ArgSort(ds) <==> x < |ds|
    {
      ArgSortPrefixMember(ds, |ds|, x);
    }
  }

  // ---------------------------------------------------------------------
  // The greedy loop, for any overlap test `over(kept, other)`
  // ---------------------------------------------------------------------

  /** The candidates left after the pick `i`: the other remaining ones the
      overlap test does not fire on, in their order. */
  function Survivors(ds: seq<Detection>, i: nat, cands: seq<nat>, over: (Detection, Detection) -> bool): (r: seq<nat>)
    requires i < |ds| && InRange(ds, cands)
    ensures |r| <= |cands|
    ensures InRange(ds, r)
    decreases |cands|
  {
    if |cands| == 0 then []
    else
      var j := cands[|cands| - 1];
      var r0 := Survivors(ds, i, cands[..|cands| - 1], over);
      if over(ds[i], ds[j]) then r0 else r0 + [j]
  }

  /** A candidate survives exactly when the pick does not overlap it. */
  lemma {:induction false} SurvivorsMember(ds: seq<Detection>, i: nat, cands: seq<nat>, over: (Detection, Detection) -> bool, j: nat)
    requires i < |ds| && InRange(ds, cands) && j < |ds|
    ensures j in Survivors(ds, i, cands, over) <==> j in cands && !over(ds[i], ds[j])
    decreases |cands|
  {
    if |cands| > 0 {
      var init := cands[..|cands| - 1];
      SurvivorsMember(ds, i, init, over, j);
      assert cands == init + [cands[|cands| - 1]];
    }
  }

  /** Filtering keeps a sub-sequence, so order and distinctness survive. */
  lemma {:induction false} SurvivorsOrdered(ds: seq<Detection>, i: nat, cands: seq<nat>, over: (Detection, Detection) -> bool)
    requires i < |ds| && InRange(ds, cands)
    ensures Distinct(cands) ==> Distinct(Survivors(ds, i, cands, over))
    ensures Ascending(ds, cands) ==> Ascending(ds, Survivors(ds, i, cands, over))
    decreases |cands|
  {
    if |cands| > 0 {
      var n := |cands|;
      var init := cands[..n - 1];
      var j := cands[n - 1];
      assert forall c :: 0 <= c < |init| ==> init[c] == cands[c];
      SurvivorsOrdered(ds, i, init, over);
      var r0 := Survivors(ds, i, init, over);
      var r := Survivors(ds, i, cands, over);
      if !over(ds[i], ds[j]) {
        assert r == r0 + [j];
        if Distinct(cands) {
          forall a, b | 0 <= a < b < |r|
            ensures r[a] != r[b]
          {
            if b == |r0| {
              var x := r0[a];
              assert x in r0;
              SurvivorsMember(ds, i, init, over, x);
              var c :| 0 <= c < |init| && init[c] == x;
              assert cands[c] == x;
            } else {
              assert r[a] == r0[a] && r[b] == r0[b];
            }
          }
        }
        if Ascending(ds, cands) {
          forall a, b | 0 <= a < b < |r|
            ensures ds[r[a]].score <= ds[r[b]].score
          {
            if b == |r0| {
              var x := r0[a];
              assert x in r0;
              SurvivorsMember(ds, i, init, over, x);
              var c :| 0 <= c < |init| && init[c] == x;
              assert cands[c] == x;
            } else {
              assert r[a] == r0[a] && r[b] == r0[b];
            }
          }
        }
      }
    }
  }

  /** The greedy loop, run until no candidate remains: the picked indices
      in pick order. */
  function Greedy(ds: seq<Detection>, idxs: seq<nat>, over: (Detection, Detection) -> bool): (picks: seq<nat>)
    requires InRange(ds, idxs)
    ensures |picks| <= |idxs|
    ensures InRange(ds, picks)
    decreases |idxs|
  {
    if |idxs| == 0 then []
    else
      var last := |idxs| - 1;
      [idxs[last]] + Greedy(ds, Survivors(ds, idxs[last], idxs[..last], over), over)
  }

  /** Only remaining candidates are picked. */
  lemma {:induction false} GreedyMember(ds: seq<Detection>, idxs: seq<nat>, over: (Detection, Detection) -> bool, p: nat)
    requires InRange(ds, idxs)
    ensures p in Greedy(ds, idxs, over) ==> p in idxs
    decreases |idxs|
  {
    if |idxs| > 0 && p in Greedy(ds, idxs, over) {
      var last := |idxs| - 1;
      var i := idxs[last];
      var rest := Survivors(ds, i, idxs[..last], over);
      if p != i {
        assert p in Greedy(ds, rest, over);
        GreedyMember(ds, rest, over, p);
        SurvivorsMember(ds, i, idxs[..last], over, p);
      }
    }
  }

  /** Each candidate index is picked at most once. */
  lemma {:induction false} GreedyDistinct(ds: seq<Detection>, idxs: seq<nat>, over: (Detection, Detection) -> bool)
    requires InRange(ds, idxs) && Distinct(idxs)
    ensures Distinct(Greedy(ds, idxs, over))
    decreases |idxs|
  {
    if |idxs| > 0 {
      var last := |idxs| - 1;
      var i := idxs[last];
      var rest := Survivors(ds, i, idxs[..last], over);
      SurvivorsOrdered(ds, i, idxs[..last], over);
      GreedyDistinct(ds, rest, over);
      var tail := Greedy(ds, rest, over);
      var picks := Greedy(ds, idxs, over);
      assert picks == [i] + tail;
      GreedyMember(ds, rest, over, i);
      SurvivorsMember(ds, i, idxs[..last], over, i);
      assert i !in tail;
      forall a, b | 0 <= a < b < |picks|
        ensures picks[a] != picks[b]
      {
        if a == 0 {
          assert picks[b] == tail[b - 1];
        } else {
          assert picks[a] == tail[a - 1] && picks[b] == tail[b - 1];
        }
      }
    }
  }

  /** Picked indices by non-increasing score. */
  ghost predicate Descending(ds: seq<Detection>, picks: seq<nat>)
    requires InRange(ds, picks)
  {
    forall a, b :: 0 <= a < b < |picks| ==> ds[picks[a]].score >= ds[picks[b]].score
  }

  /** On ascending input the picks come out by non-increasing score, and the
      first pick is the last (highest-scoring) index. */
  lemma {:induction false} GreedyDescending(ds: seq<Detection>, idxs: seq<nat>, over: (Detection, Detection) -> bool)
    requires InRange(ds, idxs) && Ascending(ds, idxs)
    ensures Descending(ds, Greedy(ds, idxs, over))
    ensures |idxs| > 0 ==> |Greedy(ds, idxs, over)| > 0 && Greedy(ds, idxs, over)[0] == idxs[|idxs| - 1]
    decreases |idxs|
  {
    if |idxs| > 0 {
      var last := |idxs| - 1;
      var i := idxs[last];
      var rest := Survivors(ds, i, idxs[..last], over);
      SurvivorsOrdered(ds, i, idxs[..last], over);
      GreedyDescending(ds, rest, over);
      var tail := Greedy(ds, rest, over);
      var picks := Greedy(ds, idxs, over);
      assert picks == [i] + tail;
      forall a, b | 0 <= a < b < |picks|
        ensures ds[picks[a]].score >= ds[picks[b]].score
      {
        if a == 0 {
          var p := tail[b - 1];
          assert picks[b] == p;
          assert p in tail;
          GreedyMember(ds, rest, over, p);
          SurvivorsMember(ds, i, idxs[..last], over, p);
          var k :| 0 <= k < last && idxs[..last][k] == p;
          assert idxs[k] == p;
        } else {
          assert picks[a] == tail[a - 1] && picks[b] == tail[b - 1];
        }
      }
    }
  }

  /** Picked indices no earlier one of which overlaps a later one. */
  ghost predicate KeptApart(ds: seq<Detection>, picks: seq<nat>, over: (Detection, Detection) -> bool)
    requires InRange(ds, picks)
  {
    forall a, b :: 0 <= a < b < |picks| ==> !over(ds[picks[a]], ds[picks[b]])
  }

  /** No kept box fails the overlap test against a box kept before it. */
  lemma {:induction false} GreedyKeptApart(ds: seq<Detection>, idxs: seq<nat>, over: (Detection, Detection) -> bool)
    requires InRange(ds, idxs)
    ensures KeptApart(ds, Greedy(ds, idxs, over), over)
    decreases |idxs|
  {
    if |idxs| > 0 {
      var last := |idxs| - 1;
      var i := idxs[last];
      var rest := Survivors(ds, i, idxs[..last], over);
      GreedyKeptApart(ds, rest, over);
      var tail := Greedy(ds, rest, over);
      var picks := Greedy(ds, idxs, over);
      assert picks == [i] + tail;
      forall a, b | 0 <= a < b < |picks|
        ensures !over(ds[picks[a]], ds[picks[b]])
      {
        if a == 0 {
          var p := tail[b - 1];
          assert picks[b] == p;
          assert p in tail;
          GreedyMember(ds, rest, over, p);
          SurvivorsMember(ds, i, idxs[..last], over, p);
        } else {
          assert picks[a] == tail[a - 1] && picks[b] == tail[b - 1];
        }
      }
    }
  }

  /** A candidate that is not picked was dropped by a pick scoring at least
      as high whose overlap test against it fired. */
  lemma {:induction false} GreedyComplete(ds: seq<Detection>, idxs: seq<nat>, over: (Detection, Detection) -> bool, j: nat)
    requires InRange(ds, idxs) && Ascending(ds, idxs) && j in idxs
    ensures j in Greedy(ds, idxs, over)
            || exists a :: 0 <= a < |Greedy(ds, idxs, over)|
                           && over(ds[Greedy(ds, idxs, over)[a]], ds[j])
                           && ds[Greedy(ds, idxs, over)[a]].score >= ds[j].score
    decreases |idxs|
  {
    var last := |idxs| - 1;
    var i := idxs[last];
    var rest := Survivors(ds, i, idxs[..last], over);
    var tail := Greedy(ds, rest, over);
    var picks := Greedy(ds, idxs, over);
    assert picks == [i] + tail;
    if j != i {
      var k :| 0 <= k < |idxs| && idxs[k] == j;
      assert k < last;
      assert j in idxs[..last];
      SurvivorsMember(ds, i, idxs[..last], over, j);
      if over(ds[i], ds[j]) {
        assert picks[0] == i;
        assert ds[idxs[k]].score <= ds[idxs[last]].score;
      } else {
        SurvivorsOrdered(ds, i, idxs[..last], over);
        GreedyComplete(ds, rest, over, j);
        if j !in tail {
          var a :| 0 <= a < |tail| && over(ds[tail[a]], ds[j]) && ds[tail[a]].score >= ds[j].score;
          assert picks[a + 1] == tail[a];
        }
      }
    }
  }

  // ---------------------------------------------------------------------
  // non_max_suppression
  // ---------------------------------------------------------------------

  /** The source's overlap test at a given threshold. */
  function OverlapTest(thresh: real): (Detection, Detection) -> bool {
    (kept: Detection, other: Detection) => Exceeds(kept, other, thresh)
  }

  /** The picked indices: empty input gives no picks, otherwise the greedy
      loop over the argsort order. */
  function Picks(ds: seq<Detection>, thresh: real): (picks: seq<nat>)
    ensures InRange(ds, picks)
  {
    if |ds| == 0 then [] else Greedy(ds, ArgSort(ds), OverlapTest(thresh))
  }

  /** The picked records, in pick order. */
  function Select(ds: seq<Detection>, picks: seq<nat>): (out: seq<Detection>)
    requires InRange(ds, picks)
    ensures |out| == |picks|
    ensures forall k :: 0 <= k < |out| ==> out[k] == ds[picks[k]]
  {
    seq(|picks|, k requires 0 <= k < |picks| => ds[picks[k]])
  }

  function NonMaxSuppression(ds: seq<Detection>, thresh: real): seq<Detection>
  {
    Select(ds, Picks(ds, thresh))
  }

  /** Records by non-increasing score. */
  ghost predicate ScoresNonIncreasing(out: seq<Detection>) {
    forall a, b :: 0 <= a < b < |out| ==> out[a].score >= out[b].score
  }

  /** The output is a sub-list of the input: no record is invented, each
      input position is used at most once, and nothing is added. */
  lemma NmsSubList(ds: seq<Detection>, thresh: real)
    ensures |ds| == 0 ==> NonMaxSuppression(ds, thresh) == []
    ensures |NonMaxSuppression(ds, thresh)| <= |ds|
    ensures Distinct(Picks(ds, thresh))
    ensures forall d :: d in NonMaxSuppression(ds, thresh) ==> d in ds
  {
    if |ds| > 0 {
      GreedyDistinct(ds, ArgSort(ds), OverlapTest(thresh));
    }
    var out := NonMaxSuppression(ds, thresh);
    var picks := Picks(ds, thresh);
    forall d | d in out
      ensures d in ds
    {
      var k :| 0 <= k < |out| && out[k] == d;
      assert out[k] == ds[picks[k]];
    }
  }

  /** Records come out by non-increasing score, and a non-empty input keeps
      one of its highest-scoring records first. */
  lemma NmsOrder(ds: seq<Detection>, thresh: real)
    ensures ScoresNonIncreasing(NonMaxSuppression(ds, thresh))
    ensures |ds| > 0 ==> |NonMaxSuppression(ds, thresh)| > 0
                         && forall k :: 0 <= k < |ds| ==> NonMaxSuppression(ds, thresh)[0].score >= ds[k].score
  {
    if |ds| > 0 {
      var order := ArgSort(ds);
      GreedyDescending(ds, order, OverlapTest(thresh));
      var out := NonMaxSuppression(ds, thresh);
      var picks := Picks(ds, thresh);
      var top := order[|ds| - 1];
      assert out[0] == ds[top];
      ArgSortPermutation(ds);
      forall k | 0 <= k < |ds|
        ensures ds[top].score >= ds[k].score
      {
        assert k in order;
        var a :| 0 <= a < |order| && order[a] == k;
      }
      forall a, b | 0 <= a < b < |out|
        ensures out[a].score >= out[b].score
      {
        assert out[a] == ds[picks[a]] && out[b] == ds[picks[b]];
      }
    }
  }

  /** Kept records, no earlier one exceeding the threshold over a later one. */
  ghost predicate ApartAt(out: seq<Detection>, thresh: real) {
    forall a, b :: 0 <= a < b < |out| ==> !Exceeds(out[a], out[b], thresh)
  }

  /** Kept records whose pairwise intersections stay within `thresh` times
      the later record's area. */
  ghost predicate WithinThreshold(out: seq<Detection>, thresh: real) {
    forall a, b :: 0 <= a < b < |out| ==>
      Area(out[b]) <= 0 || Intersection(out[a], out[b]) as real <= thresh * Area(out[b]) as real
  }

  /** Any two kept records pass the overlap test in pick order. */
  lemma NmsKeptApart(ds: seq<Detection>, thresh: real)
    ensures ApartAt(NonMaxSuppression(ds, thresh), thresh)
  {
    var out := NonMaxSuppression(ds, thresh);
    var picks := Picks(ds, thresh);
    if |ds| > 0 {
      GreedyKeptApart(ds, ArgSort(ds), OverlapTest(thresh));
    }
    forall a, b | 0 <= a < b < |out|
      ensures !Exceeds(out[a], out[b], thresh)
    {
      assert out[a] == ds[picks[a]] && out[b] == ds[picks[b]];
      assert !OverlapTest(thresh)(ds[picks[a]], ds[picks[b]]);
    }
  }

  /** Two records that pass the overlap test keep their intersection within
      `thresh` times the second one's area. */
  lemma PassIsWithin(kept: Detection, other: Detection, thresh: real)
    requires thresh >= 0.0 && !Exceeds(kept, other, thresh)
    ensures Area(other) <= 0 || Intersection(kept, other) as real <= thresh * Area(other) as real
  {
    ExceedsCrossMultiplied(kept, other, thresh);
  }

  lemma ApartIsWithinThreshold(out: seq<Detection>, thresh: real)
    requires thresh >= 0.0 && ApartAt(out, thresh)
    ensures WithinThreshold(out, thresh)
  {
    forall a, b | 0 <= a < b < |out|
      ensures Area(out[b]) <= 0 || Intersection(out[a], out[b]) as real <= thresh * Area(out[b]) as real
    {
      ApartPairWithin(out, thresh, a, b);
    }
  }

  lemma ApartPairWithin(out: seq<Detection>, thresh: real, a: int, b: int)
    requires thresh >= 0.0 && ApartAt(out, thresh) && 0 <= a < b < |out|
    ensures Area(out[b]) <= 0 || Intersection(out[a], out[b]) as real <= thresh * Area(out[b]) as real
  {
    var kept, other := out[a], out[b];
    assert !Exceeds(kept, other, thresh);
    PassIsWithin(kept, other, thresh);
  }

  /** With a non-negative threshold, a later kept record's intersection with
      an earlier one is at most `thresh` times its own area: a ratio exactly
      at the threshold is kept. */
  lemma NmsWithinThreshold(ds: seq<Detection>, thresh: real)
    requires thresh >= 0.0
    ensures WithinThreshold(NonMaxSuppression(ds, thresh), thresh)
  {
    NmsKeptApart(ds, thresh);
    ApartIsWithinThreshold(NonMaxSuppression(ds, thresh), thresh);
  }

  /** A record is dropped only because a kept record scoring at least as
      high overlaps it above the threshold. */
  lemma NmsDropsOnlyOverlapped(ds: seq<Detection>, thresh: real, k: nat)
    requires k < |ds|
    ensures k in Picks(ds, thresh)
            || exists a :: 0 <= a < |NonMaxSuppression(ds, thresh)|
                           && Exceeds(NonMaxSuppression(ds, thresh)[a], ds[k], thresh)
                           && NonMaxSuppression(ds, thresh)[a].score >= ds[k].score
  {
    var order := ArgSort(ds);
    var over := OverlapTest(thresh);
    var out := NonMaxSuppression(ds, thresh);
    var picks := Picks(ds, thresh);
    ArgSortPermutation(ds);
    assert k in order;
    GreedyComplete(ds, order, over, k);
    if k !in picks {
      var a :| 0 <= a < |picks| && over(ds[picks[a]], ds[k]) && ds[picks[a]].score >= ds[k].score;
      assert out[a] == ds[picks[a]];
    }
  }

  // ---------------------------------------------------------------------
  // Idempotence
  // ---------------------------------------------------------------------

  /** `[n-1, n-2, ..., lo]`. */
  function Down(lo: nat, n: nat): (r: seq<nat>)
    ensures |r| == if lo <= n then n - lo else 0
    decreases n - lo
  {
    if lo >= n then [] else Down(lo + 1, n) + [lo]
  }

  lemma {:induction false} DownIndex(lo: nat, n: nat)
    ensures forall k :: 0 <= k < |Down(lo, n)| ==> Down(lo, n)[k] == n - 1 - k
    decreases n - lo
  {
    if lo < n {
      DownIndex(lo + 1, n);
    }
  }

  lemma {:induction false} DownPrepend(lo: nat, n: nat)
    requires lo <= n
    ensures Down(lo, n + 1) == [n] + Down(lo, n)
    decreases n - lo
  {
    if lo < n {
      DownPrepend(lo + 1, n);
      assert Down(lo, n + 1) == Down(lo + 1, n + 1) + [lo];
    } else {
      assert Down(n, n + 1) == Down(n + 1, n + 1) + [n];
    }
  }

  /** `[lo, lo+1, ..., n-1]`. */
  function Up(lo: nat, n: nat): (r: seq<nat>)
    ensures |r| == if lo <= n then n - lo else 0
    ensures forall k :: 0 <= k < |r| ==> r[k] == lo + k
    decreases n - lo
  {
    if lo >= n then [] else [lo] + Up(lo + 1, n)
  }

  ghost predicate StrictlyDescending(ds: seq<Detection>) {
    forall a, b :: 0 <= a < b < |ds| ==> ds[a].score > ds[b].score
  }

  /** Inserting an index whose score is below every other puts it first. */
  lemma {:induction false} InsertSmallest(ds: seq<Detection>, sorted: seq<nat>, k: nat)
    requires k < |ds| && InRange(ds, sorted)
    requires forall c :: 0 <= c < |sorted| ==> ds[sorted[c]].score > ds[k].score
    ensures Insert(ds, sorted, k) == [k] + sorted
    decreases |sorted|
  {
    if |sorted| > 0 {
      var init := sorted[..|sorted| - 1];
      InsertSmallest(ds, init, k);
      assert init + [sorted[|sorted| - 1]] == sorted;
    }
  }

  /** On strictly descending scores the stable argsort is the reversal. */
  lemma {:induction false} ArgSortPrefixOfDescending(ds: seq<Detection>, n: nat)
    requires n <= |ds| && StrictlyDescending(ds)
    ensures ArgSortPrefix(ds, n) == Down(0, n)
  {
    if n > 0 {
      ArgSortPrefixOfDescending(ds, n - 1);
      var prev := Down(0, n - 1);
      DownIndex(0, n - 1);
      InsertSmallest(ds, prev, n - 1);
      DownPrepend(0, n - 1);
    }
  }

  ghost predicate PairwiseApart(ds: seq<Detection>, over: (Detection, Detection) -> bool) {
    forall a, b :: 0 <= a < b < |ds| ==> !over(ds[a], ds[b])
  }

  lemma {:induction false} SurvivorsOfApart(ds: seq<Detection>, i: nat, cands: seq<nat>, over: (Detection, Detection) -> bool)
    requires i < |ds| && InRange(ds, cands) && PairwiseApart(ds, over)
    requires forall c :: 0 <= c < |cands| ==> i < cands[c]
    ensures Survivors(ds, i, cands, over) == cands
    decreases |cands|
  {
    if |cands| > 0 {
      var init := cands[..|cands| - 1];
      SurvivorsOfApart(ds, i, init, over);
      assert init + [cands[|cands| - 1]] == cands;
    }
  }

  /** One round of the greedy loop. */
  lemma GreedyStep(ds: seq<Detection>, idxs: seq<nat>, over: (Detection, Detection) -> bool)
    requires InRange(ds, idxs) && |idxs| > 0
    ensures Greedy(ds, idxs, over)
            == [idxs[|idxs| - 1]] + Greedy(ds, Survivors(ds, idxs[|idxs| - 1], idxs[..|idxs| - 1], over), over)
  {
  }

  lemma DownInRange(ds: seq<Detection>, lo: nat)
    ensures InRange(ds, Down(lo, |ds|))
    ensures forall c :: 0 <= c < |Down(lo, |ds|)| ==> lo <= Down(lo, |ds|)[c]
  {
    DownIndex(lo, |ds|);
  }

  /** On a pairwise-apart list visited in reverse, nothing is ever suppressed. */
  lemma {:induction false} GreedyOfApart(ds: seq<Detection>, lo: nat, over: (Detection, Detection) -> bool)
    requires lo <= |ds| && PairwiseApart(ds, over) && InRange(ds, Down(lo, |ds|))
    ensures Greedy(ds, Down(lo, |ds|), over) == Up(lo, |ds|)
    decreases |ds| - lo
  {
    var n := |ds|;
    if lo < n {
      var idxs := Down(lo, n);
      var rest := Down(lo + 1, n);
      DownInRange(ds, lo);
      DownInRange(ds, lo + 1);
      assert idxs[..|idxs| - 1] == rest && idxs[|idxs| - 1] == lo;
      SurvivorsOfApart(ds, lo, rest, over);
      GreedyOfApart(ds, lo + 1, over);
      GreedyStep(ds, idxs, over);
    }
  }

  /** Selecting every index in order gives the list back. */
  lemma SelectAll(ds: seq<Detection>)
    ensures InRange(ds, Up(0, |ds|)) && Select(ds, Up(0, |ds|)) == ds
  {
  }

  /** Running the suppression on a list that is already strictly descending
      and pairwise apart returns it unchanged. */
  lemma NmsFixedPoint(ds: seq<Detection>, thresh: real)
    requires StrictlyDescending(ds) && PairwiseApart(ds, OverlapTest(thresh))
    ensures NonMaxSuppression(ds, thresh) == ds
  {
    var n := |ds|;
    if n > 0 {
      ArgSortPrefixOfDescending(ds, n);
      assert ArgSort(ds) == Down(0, n);
      DownInRange(ds, 0);
      GreedyOfApart(ds, 0, OverlapTest(thresh));
      assert Picks(ds, thresh) == Up(0, n);
      SelectAll(ds);
    }
  }

  ghost predicate DistinctScores(ds: seq<Detection>) {
    forall a, b :: 0 <= a < b < |ds| ==> ds[a].score != ds[b].score
  }

  /** With distinct scores, suppressing the output of a suppression changes
      nothing. */
  lemma NmsIdempotent(ds: seq<Detection>, thresh: real)
    requires DistinctScores(ds)
    ensures NonMaxSuppression(NonMaxSuppression(ds, thresh), thresh) == NonMaxSuppression(ds, thresh)
  {
    var out := NonMaxSuppression(ds, thresh);
    var picks := Picks(ds, thresh);
    NmsSubList(ds, thresh);
    NmsOrder(ds, thresh);
    if |ds| > 0 {
      GreedyKeptApart(ds, ArgSort(ds), OverlapTest(thresh));
    }
    forall a, b | 0 <= a < b < |out|
      ensures out[a].score > out[b].score
      ensures !OverlapTest(thresh)(out[a], out[b])
    {
      assert out[a] == ds[picks[a]] && out[b] == ds[picks[b]];
      assert picks[a] != picks[b];
      if picks[a] < picks[b] {
        assert ds[picks[a]].score != ds[picks[b]].score;
      } else {
        assert ds[picks[b]].score != ds[picks[a]].score;
      }
    }
    NmsFixedPoint(out, thresh);
  }
}

=== FILE: tile_mapping.dfy ===
/**
 One detector pass over one crop of the image: the crop itself (with
 Python's slice semantics), the conversion of the detector's tile-relative
 output into absolute detections, and the percent-based entry point used for
 the full-image pass.
 */
module TileMapping {
  import opened Detections

  /** One row of detector output: the score, the box as fractions of the crop
      in the detector's order (ymin, xmin, ymax, xmax), and the class id as
      the float the model emits. */
  datatype Candidate = Candidate(score: real, ymin: real, xmin: real, ymax: real, xmax: real, classId: real)

  /** The source image; only its shape matters to the core. */
  datatype Image = Image(width: nat, height: nat)

  /** The rectangle of the image a crop keeps, after slice normalisation. */
  datatype Region = Region(left: nat, top: nat, width: nat, height: nat)

  /** The detector, seen from the core: the crop goes in (resized and scaled
      to the model's input), candidate rows come out. */
  type Detector = Region -> seq<Candidate>

  // ---------------------------------------------------------------------
  // Cropping: `image[ay0:ay1, ax0:ax1]`
  // ---------------------------------------------------------------------

  /** Where a slice bound lands in an axis of length `len`: a negative bound
      counts from the end, and the result is clamped to `[0, len]`. */
  function SliceBound(i: int, len: nat): (b: nat)
    ensures b <= len
    ensures 0 <= i <= len ==> b == i
    ensures len < i ==> b == len
    ensures i < 0 && 0 <= i + len ==> b == i + len
    ensures i + len < 0 ==> b == 0
  {
    if i < 0 then (if i + len < 0 then 0 else i + len)
    else if i > len then len
    else i
  }

  /** The number of elements the slice `[start:stop]` keeps. */
  function SliceLength(start: int, stop: int, len: nat): (n: nat)
    ensures SliceBound(start, len) + n <= len
    ensures 0 <= start <= stop <= len ==> n == stop - start
    ensures 0 <= stop <= start ==> n == 0
    ensures 0 <= start <= len <= stop ==> n == len - start
    ensures 0 <= start < len && start < stop ==> n >= 1
  {
    var a := SliceBound(start, len);
    var b := SliceBound(stop, len);
    if a < b then b - a else 0
  }

  /** The region `image[ay0:ay1, ax0:ax1]` keeps; it never leaves the image. */
  function Crop(img: Image, ax0: int, ay0: int, ax1: int, ay1: int): (r: Region)
    ensures r.left + r.width <= img.width && r.top + r.height <= img.height
    ensures 0 <= ax0 <= img.width ==> r.left == ax0
    ensures 0 <= ay0 <= img.height ==> r.top == ay0
    ensures r.width == SliceLength(ax0, ax1, img.width) && r.height == SliceLength(ay0, ay1, img.height)
    ensures 0 <= ax0 <= ax1 <= img.width ==> r.width == ax1 - ax0
    ensures 0 <= ax0 <= img.width <= ax1 ==> r.width == img.width - ax0
    ensures 0 <= ay0 <= ay1 <= img.height ==> r.height == ay1 - ay0
    ensures 0 <= ay0 <= img.height <= ay1 ==> r.height == img.height - ay0
  {
    Region(SliceBound(ax0, img.width), SliceBound(ay0, img.height),
           SliceLength(ax0, ax1, img.width), SliceLength(ay0, ay1, img.height))
  }

  // ---------------------------------------------------------------------
  // Mapping one candidate
  // ---------------------------------------------------------------------

  /** A box that lies inside the unit square with its corners in order, as a
      well-behaved detector emits. */
  predicate UnitBox(c: Candidate) {
    0.0 <= c.ymin <= c.ymax <= 1.0 && 0.0 <= c.xmin <= c.xmax <= 1.0
  }

  /** The class map's label for an id, or "Unknown" for an id it lacks. */
  function LabelFor(names: map<int, string>, id: int): (s: string)
    ensures s in names.Values || s == "Unknown"
    ensures id in names ==> s == names[id]
    ensures id !in names ==> s == "Unknown"
  {
    if id in names then names[id] else "Unknown"
  }

  /** A fraction of a crop dimension in pixels, truncated toward zero. */
  function Scale(f: real, dim: nat): (p: int)
    ensures TruncatedFrom(p, f * dim as real)
    ensures 0.0 <= f <= 1.0 ==> 0 <= p <= dim
  {
    var x := f * dim as real;
    TruncTruncates(x);
    MulBounded(f, dim as real);
    Trunc(x)
  }

  lemma MulBounded(f: real, d: real)
    ensures 0.0 <= f <= 1.0 && 0.0 <= d ==> 0.0 <= f * d <= d
  {
  }

  lemma MulNonNegative(a: real, b: real)
    requires 0.0 <= a && 0.0 <= b
    ensures 0.0 <= a * b
  {
  }

  /** Scaling to pixels keeps the order of two fractions. */
  lemma ScaleMonotone(f: real, g: real, dim: nat)
    ensures f <= g ==> Scale(f, dim) <= Scale(g, dim)
  {
    if f <= g {
      ScaleOrdered(f, g, dim);
    }
  }

  lemma ScaleOrdered(f: real, g: real, dim: nat)
    requires f <= g
    ensures Scale(f, dim) <= Scale(g, dim)
  {
    var d := dim as real;
    assert g * d - f * d == (g - f) * d;
    MulNonNegative(g - f, d);
    TruncMonotone(f * dim as real, g * dim as real);
  }

  /** `v` is `origin` plus the fraction `f` of `dim` pixels, truncated
      toward zero. */
  predicate PlacedFrom(v: int, origin: int, f: real, dim: nat) {
    TruncatedFrom(v - origin, f * dim as real)
  }

  /** A fraction of a crop dimension as an absolute pixel coordinate: scaled,
      truncated, then shifted by the crop's origin. */
  function Place(f: real, dim: nat, origin: int): (v: int)
    ensures PlacedFrom(v, origin, f, dim)
  {
    Scale(f, dim) + origin
  }

  /** Two fractions in order map to coordinates in order, and inside the
      crop when both lie in [0, 1]. */
  lemma PlaceSpan(lo: real, hi: real, dim: nat, origin: int)
    ensures lo <= hi ==> Place(lo, dim, origin) <= Place(hi, dim, origin)
    ensures 0.0 <= lo <= hi <= 1.0 ==> origin <= Place(lo, dim, origin) && Place(hi, dim, origin) <= origin + dim
  {
    ScaleMonotone(lo, hi, dim);
  }

  /** One candidate in absolute image coordinates: the box scaled by the
      crop's own width and height, truncated, then shifted by the crop's
      requested origin `(ax0, ay0)`. */
  function MapCandidate(c: Candidate, names: map<int, string>, w: nat, h: nat, ax0: int, ay0: int): (d: Detection)
    ensures d.score == c.score
    ensures d.name in names.Values || d.name == "Unknown"
    ensures Trunc(c.classId) in names ==> d.name == names[Trunc(c.classId)]
    ensures Trunc(c.classId) !in names ==> d.name == "Unknown"
    ensures PlacedFrom(d.xmin, ax0, c.xmin, w) && PlacedFrom(d.xmax, ax0, c.xmax, w)
    ensures PlacedFrom(d.ymin, ay0, c.ymin, h) && PlacedFrom(d.ymax, ay0, c.ymax, h)
    ensures c.xmin <= c.xmax ==> d.xmin <= d.xmax
    ensures c.ymin <= c.ymax ==> d.ymin <= d.ymax
    ensures UnitBox(c) ==> ax0 <= d.xmin <= d.xmax <= ax0 + w && ay0 <= d.ymin <= d.ymax <= ay0 + h
  {
    PlaceSpan(c.xmin, c.xmax, w, ax0);
    PlaceSpan(c.ymin, c.ymax, h, ay0);
    Detection(c.score, LabelFor(names, Trunc(c.classId)),
              Place(c.xmin, w, ax0), Place(c.ymin, h, ay0), Place(c.xmax, w, ax0), Place(c.ymax, h, ay0))
  }

  // ---------------------------------------------------------------------
  // Mapping a tile's output
  // ---------------------------------------------------------------------

  ghost predicate Increasing(ks: seq<nat>) {
    forall a, b :: 0 <= a < b < |ks| ==> ks[a] < ks[b]
  }

  /** Positions of the rows whose score is strictly above the cutoff, in
      row order. */
  function Kept(rows: seq<Candidate>, cutoff: real): (ks: seq<nat>)
    ensures |ks| <= |rows|
    ensures forall k :: 0 <= k < |ks| ==> ks[k] < |rows|
    ensures Increasing(ks)
  {
    if |rows| == 0 then []
    else
      var init := Kept(rows[..|rows| - 1], cutoff);
      if rows[|rows| - 1].score > cutoff then init + [|rows| - 1] else init
  }

  /** A row is kept exactly when its score beats the cutoff. */
  lemma {:induction false} KeptMember(rows: seq<Candidate>, cutoff: real, j: nat)
    ensures j in Kept(rows, cutoff) <==> j < |rows| && rows[j].score > cutoff
  {
    if |rows| > 0 {
      KeptMember(rows[..|rows| - 1], cutoff, j);
    }
  }

  /** The mapping loop: every row above the cutoff, in order, mapped into
      image coordinates. */
  function MapTile(rows: seq<Candidate>, cutoff: real, names: map<int, string>, w: nat, h: nat, ax0: int, ay0: int): (ds: seq<Detection>)
    ensures |ds| == |Kept(rows, cutoff)|
  {
    if |rows| == 0 then []
    else
      var init := MapTile(rows[..|rows| - 1], cutoff, names, w, h, ax0, ay0);
      var last := rows[|rows| - 1];
      if last.score > cutoff then init + [MapCandidate(last, names, w, h, ax0, ay0)] else init
  }

  /** The `k`-th detection is the mapping of the `k`-th kept row: the loop
      keeps the rows' order. */
  lemma {:induction false} MapTileAt(rows: seq<Candidate>, cutoff: real, names: map<int, string>, w: nat, h: nat, ax0: int, ay0: int, k: nat)
    requires k < |Kept(rows, cutoff)|
    ensures MapTile(rows, cutoff, names, w, h, ax0, ay0)[k]
            == MapCandidate(rows[Kept(rows, cutoff)[k]], names, w, h, ax0, ay0)
  {
    var init := rows[..|rows| - 1];
    if k < |Kept(init, cutoff)| {
      MapTileAt(init, cutoff, names, w, h, ax0, ay0, k);
      assert rows[Kept(init, cutoff)[k]] == init[Kept(init, cutoff)[k]];
    }
  }

  /** Every mapped detection beats the cutoff and is the mapping of a row. */
  lemma MapTileSound(rows: seq<Candidate>, cutoff: real, names: map<int, string>, w: nat, h: nat, ax0: int, ay0: int, k: nat)
    requires k < |MapTile(rows, cutoff, names, w, h, ax0, ay0)|
    ensures MapTile(rows, cutoff, names, w, h, ax0, ay0)[k].score > cutoff
    ensures exists j :: 0 <= j < |rows| && MapTile(rows, cutoff, names, w, h, ax0, ay0)[k] == MapCandidate(rows[j], names, w, h, ax0, ay0)
  {
    var ks := Kept(rows, cutoff);
    KeptMember(rows, cutoff, ks[k]);
    MapTileAt(rows, cutoff, names, w, h, ax0, ay0, k);
  }

  /** Every row above the cutoff is mapped. */
  lemma MapTileComplete(rows: seq<Candidate>, cutoff: real, names: map<int, string>, w: nat, h: nat, ax0: int, ay0: int, j: nat)
    requires j < |rows| && rows[j].score > cutoff
    ensures MapCandidate(rows[j], names, w, h, ax0, ay0) in MapTile(rows, cutoff, names, w, h, ax0, ay0)
  {
    KeptMember(rows, cutoff, j);
    var ks := Kept(rows, cutoff);
    var k :| 0 <= k < |ks| && ks[k] == j;
    MapTileAt(rows, cutoff, names, w, h, ax0, ay0, k);
  }

  // ---------------------------------------------------------------------
  // One pass over one crop
  // ---------------------------------------------------------------------

  /** A detection lying inside a region, corners in order. */
  predicate InsideRegion(d: Detection, r: Region) {
    r.left <= d.xmin <= d.xmax <= r.left + r.width && r.top <= d.ymin <= d.ymax <= r.top + r.height
  }

  /** A detector whose boxes always lie in the unit square. */
  ghost predicate Normalised(detect: Detector) {
    forall r: Region, c :: c in detect(r) ==> UnitBox(c)
  }

  /** `ds` holds exactly the mappings of the rows scoring above the cutoff:
      every record is the mapping of such a row, and every such row's mapping
      is a record. */
  ghost predicate MappedExactly(ds: seq<Detection>, rows: seq<Candidate>, cutoff: real, names: map<int, string>,
                                w: nat, h: nat, ax0: int, ay0: int)
  {
    (forall d :: d in ds ==>
       exists j :: 0 <= j < |rows| && rows[j].score > cutoff && d == MapCandidate(rows[j], names, w, h, ax0, ay0)) &&
    (forall j :: 0 <= j < |rows| && rows[j].score > cutoff ==> MapCandidate(rows[j], names, w, h, ax0, ay0) in ds)
  }

  /** A tile's records are exactly the mappings of its rows above the
      cutoff, each of them scoring above the cutoff. */
  lemma MapTileExact(rows: seq<Candidate>, cutoff: real, names: map<int, string>, w: nat, h: nat, ax0: int, ay0: int)
    ensures var ds := MapTile(rows, cutoff, names, w, h, ax0, ay0);
            (forall d :: d in ds ==> d.score > cutoff) && MappedExactly(ds, rows, cutoff, names, w, h, ax0, ay0)
  {
    var ds := MapTile(rows, cutoff, names, w, h, ax0, ay0);
    forall d | d in ds
      ensures d.score > cutoff
      ensures exists j :: 0 <= j < |rows| && rows[j].score > cutoff && d == MapCandidate(rows[j], names, w, h, ax0, ay0)
    {
      var k :| 0 <= k < |ds| && ds[k] == d;
      MapTileSound(rows, cutoff, names, w, h, ax0, ay0, k);
    }
    forall j | 0 <= j < |rows| && rows[j].score > cutoff
      ensures MapCandidate(rows[j], names, w, h, ax0, ay0) in ds
    {
      MapTileComplete(rows, cutoff, names, w, h, ax0, ay0, j);
    }
  }

  /** Crop, detect and map one part of the image. An empty crop is refused
      by the resize step before the detector runs. */
  function InferPart(img: Image, cutoff: real, names: map<int, string>, detect: Detector,
                     ax0: int, ay0: int, ax1: int, ay1: int): (r: Result<seq<Detection>>)
    ensures r.Failure? <==> SliceLength(ax0, ax1, img.width) == 0 || SliceLength(ay0, ay1, img.height) == 0
    ensures r.Success? ==> forall d :: d in r.value ==> d.score > cutoff
    ensures r.Success? ==> var region := Crop(img, ax0, ay0, ax1, ay1);
      MappedExactly(r.value, detect(region), cutoff, names, region.width, region.height, ax0, ay0)
  {
    var region := Crop(img, ax0, ay0, ax1, ay1);
    if region.width == 0 || region.height == 0 then
      Failure(InvalidTile)
    else
      var rows := detect(region);
      var ds := MapTile(rows, cutoff, names, region.width, region.height, ax0, ay0);
      MapTileExact(rows, cutoff, names, region.width, region.height, ax0, ay0);
      Success(ds)
  }

  /** With a well-behaved detector and a crop requested from inside the
      image, every detection lies inside the crop, and so inside the image. */
  lemma InferPartInside(img: Image, cutoff: real, names: map<int, string>, detect: Detector,
                        ax0: int, ay0: int, ax1: int, ay1: int)
    requires Normalised(detect) && 0 <= ax0 && 0 <= ay0
    ensures var r := InferPart(img, cutoff, names, detect, ax0, ay0, ax1, ay1);
            r.Success? ==> forall d :: d in r.value ==> InsideRegion(d, Crop(img, ax0, ay0, ax1, ay1))
    ensures var reg := Crop(img, ax0, ay0, ax1, ay1);
            reg.left + reg.width <= img.width && reg.top + reg.height <= img.height
  {
    var region := Crop(img, ax0, ay0, ax1, ay1);
    if region.width > 0 && region.height > 0 {
      assert region.left == ax0 && region.top == ay0;
      var rows := detect(region);
      var ds := MapTile(rows, cutoff, names, region.width, region.height, ax0, ay0);
      forall k | 0 <= k < |ds|
        ensures InsideRegion(ds[k], region)
      {
        var j := Kept(rows, cutoff)[k];
        MapTileAt(rows, cutoff, names, region.width, region.height, ax0, ay0, k);
        assert rows[j] in rows;
      }
    }
  }

  // ---------------------------------------------------------------------
  // The percent entry point
  // ---------------------------------------------------------------------

  /** A fraction of the last pixel index, truncated toward zero. */
  function PercentToPixel(p: real, dim: nat): (x: int)
    ensures 0.0 <= p <= 1.0 && 1 <= dim ==> 0 <= x <= dim - 1
    ensures p == 0.0 ==> x == 0
    ensures p == 1.0 ==> x == dim - 1
  {
    MulBounded(p, (dim - 1) as real);
    TruncOfInt(dim - 1);
    Trunc(p * (dim - 1) as real)
  }

  function InferPartPercent(img: Image, cutoff: real, names: map<int, string>, detect: Detector,
                            px0: real, py0: real, px1: real, py1: real): Result<seq<Detection>>
  {
    InferPart(img, cutoff, names, detect,
              PercentToPixel(px0, img.width), PercentToPixel(py0, img.height),
              PercentToPixel(px1, img.width), PercentToPixel(py1, img.height))
  }

  /** The full-image pass `(0, 0, 1, 1)` crops `[0, W-1) x [0, H-1)`: the last
      column and row are left out, and an image one pixel wide or high gives
      an empty crop. */
  lemma FullImagePass(img: Image, cutoff: real, names: map<int, string>, detect: Detector)
    ensures InferPartPercent(img, cutoff, names, detect, 0.0, 0.0, 1.0, 1.0)
            == InferPart(img, cutoff, names, detect, 0, 0, img.width - 1, img.height - 1)
    ensures InferPartPercent(img, cutoff, names, detect, 0.0, 0.0, 1.0, 1.0).Failure?
            <==> img.width <= 1 || img.height <= 1
    ensures 2 <= img.width && 2 <= img.height ==>
            Crop(img, 0, 0, img.width - 1, img.height - 1) == Region(0, 0, img.width - 1, img.height - 1)
  {
  }
}
